=== FILE: README.md ===
# Midjourney relay bot: a Dafny model of one run

`index.js` drives a logged-in Discord page with Playwright. When its
`/trigger` endpoint is called, `runMidjourney` does the following:

1. It reads the prompt of the newest chat message.
2. It cleans the prompt and sends it back to the channel as an `/imagine`
   command.
3. It polls the chat for up to two minutes, looking for the Midjourney bot's
   reply.
4. It waits for the render. Then it finds the reply again and checks that it
   still carries the prompt.
5. It presses the reply's `U1` (upscale) button.
6. It picks the first qualifying image of the newest message that has one
   and rewrites the image's address into a lossless-PNG form.
7. It posts the address and the prompt to a webhook.

The project models the pure logic of that run and the order in which it
gives up:

- **`Text`**
  - ASCII case folding.
  - `String.prototype.includes`.
  - The ECMAScript whitespace class. It is shared by `\s` and `trim`.
  - `trim` itself.
- **`PromptCleaning`** (index.js:117-120)
  - The non-global, case-insensitive removal of `/imagine prompt` and the
    whitespace after it.
  - Global bracket removal.
  - The final trim.
- **`ReplyDetection`** (index.js:139-192)
  - The reply predicate.
  - The newest-first scan of one message list.
  - The deadline-bounded poll over a trace of timestamped snapshots.
- **`ImageSelection`** (index.js:206-233)
  - The source filter.
  - The newest-message, first-image search.
- **`UrlNormalization`** (index.js:222-228)
  - The global `/([&?])(width|height)=\d+&?/g` replacement. It is modelled
    as the engine's left-to-right, non-overlapping scan.
  - The trailing-separator removal.
  - The quality suffix.
- **`NormalizationExamples`**
  - What the normalisation does to the query shapes it meets, stated for
    every separator-free prefix and every digit string.
- **`Job`** (index.js:79-260)
  - The whole run as a pure function of what it observes. An `Env` holds
    the message lists, whether typing and clicking went through, the poll
    trace, the re-read text and the webhook's answer.
  - The run returns a `Report`. A report records the outside effects in
    order: prompt submitted, U1 clicked, webhook posted. It also records how
    the run ended and whether the browser was closed.

Three behaviours of `index.js` that its obvious reading does not suggest:

- **Normalisation is not idempotent.** A second pass appends a second
  `format=png&quality=lossless` (`UrlNormalization.NormalizeNotIdempotent`).
- **`?width=256&height=256` keeps `height=256`.** The `&?` of the first match
  consumes the `&` the second match would need
  (`NormalizationExamples.NormalizeKeepsSecondSizeParam`).
- **An empty first message list always stops the run.** This holds even when
  the extra wait finds messages, because the prompt is read from the first,
  empty list (`Job.EmptyChatNeverSubmits`).

## Model

| member | source | states |
|---|---|---|
| Text.LowerStr | index.js:147 | definition of `toLowerCase`, restricted to ASCII: same length, each character lower-cased on its own |
| Text.Contains | index.js:147 | definition of `includes`: the needle occurs at some index, so the empty needle occurs in every text |
| Text.IsSpace | index.js:118-120 | definition of the ECMAScript WhiteSpace and LineTerminator characters, the class of both `\s` and `trim` |
| Text.SpaceRunEnd | index.js:118 | the greedy `\s*` stops at the first non-whitespace character and covers only whitespace |
| Text.Trim | index.js:120 | `trim` yields a slice without whitespace at either end, and everything cut off on either side is whitespace |
| Text.TrimKeepsChars | index.js:120 | trimming introduces no character |
| Text.AbsentInitialAbsentText | index.js:147 | `includes` fails when the text lacks the first character of the needle |
| PromptCleaning.FindMarker | index.js:118 | the regex engine finds the leftmost case-insensitive occurrence of `/imagine prompt`, and finds none exactly when there is none |
| PromptCleaning.StripMarker | index.js:118 | the first marker and its whole following whitespace run are cut out, and the text is unchanged when there is no marker |
| PromptCleaning.RemoveBrackets | index.js:119 | no `[` or `]` is left, and every other character keeps its count |
| PromptCleaning.CleanPrompt | index.js:117-120 | the cleaned prompt has no brackets and no outer whitespace, and is the trim of the bracket-free, marker-cut text |
| PromptCleaning.RemoveBracketsKeepsPlainText | index.js:119 | bracket removal is the identity on bracket-free text |
| PromptCleaning.RemoveBracketsAppend | index.js:119 | bracket removal distributes over concatenation |
| PromptCleaning.CleanPromptKeepsCleanText | index.js:117-120 | a prompt with no marker, no bracket and no outer whitespace is already clean |
| PromptCleaning.StripLeadingMarker | index.js:118 | a message that opens with the marker keeps exactly the rest without its leading whitespace |
| PromptCleaning.CleanCommandPrompt | index.js:117-120 | `/imagine prompt [body]` cleans back to `body` when `body` has no brackets and no outer whitespace |
| ReplyDetection.IsReply | index.js:147 | definition of the reply test: the text contains the prompt ignoring case, and `Midjourney Bot` as written |
| ReplyDetection.NewestReply | index.js:142-150 | the scan from the last message down returns the newest reply, and none exactly when no message is a reply |
| ReplyDetection.Poll | index.js:139-164 | the loop stops at the first snapshot whose scan hits, with every clock check up to it passed, and it times out exactly when no snapshot with passed checks shows a reply |
| ReplyDetection.PollFrom | index.js:142-158 | the loop from a given iteration on stops at the first hit among the checks that pass |
| ReplyDetection.PollTimesOutIffNoTimelyReply | index.js:140-164 | with a clock that does not run backwards, the poll times out exactly when no snapshot taken before the two-minute deadline shows a reply |
| ReplyDetection.EmptyPromptMatchesAnyBotMessage | index.js:147 | an empty cleaned prompt matches every message that carries `Midjourney Bot` |
| ReplyDetection.RecheckAfterReacquireHolds | index.js:173-192 | when the text read again is the text the re-scan matched, the prompt re-check passes |
| ReplyDetection.ReplyIgnoresPromptCase | index.js:147 | for every text, two prompts that lower-case alike match exactly the same messages |
| ReplyDetection.ReplyMatchesLoweredPrompt | index.js:147 | for every text, a prompt matches exactly when its lower-case form does |
| ReplyDetection.ReplyKeepsMarkerCase | index.js:147 | the author marker is compared with its case as written |
| ImageSelection.HasImageExtension | index.js:218 | definition of the extension test: a `.`, then `png`, `jpg`, `jpeg` or `webp` in any case, then a `?` or the end, somewhere in the source |
| ImageSelection.Qualifies | index.js:215-221 | definition of the filter: a present source on `media.discordapp.net` with an image extension, mentioning neither `avatars` nor `attachments` |
| ImageSelection.FirstQualifying | index.js:213-231 | the first qualifying image of a message, and none exactly when none qualifies |
| ImageSelection.SelectImage | index.js:209-233 | the picked image qualifies, is the first qualifying one of its message, and no newer message has one; nothing is picked exactly when no image qualifies |
| ImageSelection.SkipsExcludedImage | index.js:215-221 | a non-qualifying image ahead of a qualifying one in the newest message is skipped |
| UrlNormalization.DigitsEnd | index.js:223 | `\d+` runs over the whole digit run |
| UrlNormalization.SizeParamLength | index.js:223 | a match starts exactly where a separator, `width=` or `height=`, and a digit stand; it covers the digits and one following `&` and nothing else |
| UrlNormalization.Rewrite | index.js:223 | the global replacement never lengthens the address |
| UrlNormalization.DropTrailingSeparator | index.js:224 | the result is a prefix of the input, at most one character shorter, and it is shorter exactly when the input ends with `&` or `?` |
| UrlNormalization.Normalize | index.js:222-228 | the address ends with the quality request after a separator; what precedes the separator is the rewritten, trimmed source; the separator is `?` exactly when no `?` precedes it |
| UrlNormalization.NormalizeHasQuery | index.js:226-228 | a normalised address always carries a query string |
| UrlNormalization.RewriteKeepsOtherChars | index.js:223 | the replacement removes only characters that can belong to a size parameter, so every other character keeps its count |
| UrlNormalization.RewriteShrinksOnMatch | index.js:223 | where the pattern matches somewhere, the address gets shorter |
| UrlNormalization.RewriteKeepsMatchFree | index.js:223 | where the pattern matches nowhere, the address is left as it is |
| UrlNormalization.RewriteFixedIffNoMatch | index.js:223 | the replacement changes the address exactly when the pattern matches in it |
| UrlNormalization.NormalizeAddsOneQuality | index.js:222-228 | normalising adds exactly one `q` |
| UrlNormalization.NormalizeNotIdempotent | index.js:222-228 | normalising a normalised address changes it again |
| NormalizationExamples.RewriteSkipsPlainPrefix | index.js:223 | text without separators passes through the replacement and only shifts where matching starts |
| NormalizationExamples.RewriteKeepsPlain | index.js:223 | text without separators is not changed |
| NormalizationExamples.SizeParamMatch | index.js:223 | a separator, a size name, digits and a non-digit: the match covers the digits and a following `&` |
| NormalizationExamples.RewriteAfterMatch | index.js:223 | after a plain prefix, a match keeps its separator and the plain rest |
| NormalizationExamples.NormalizeDropsLoneSizeParam | index.js:222-228 | `x?width=N` becomes `x?format=png&quality=lossless` |
| NormalizationExamples.RewriteDropsInnerSizeParam | index.js:223 | a size parameter between two others goes with the `&` after it |
| NormalizationExamples.NormalizeDropsInnerSizeParam | index.js:222-228 | `x?a&width=N&b` becomes `x?a&b&format=png&quality=lossless` |
| NormalizationExamples.RewriteDropsTwoSizeParams | index.js:223 | the replacement is global: `p?width=N&q&height=M` becomes `p?q&`, both size parameters gone |
| NormalizationExamples.NormalizeDropsTwoSizeParams | index.js:222-228 | `p?width=N&q&height=M` becomes `p?q&format=png&quality=lossless` |
| NormalizationExamples.WidthConsumesAmpersand | index.js:223 | in `?width=N&height=M` the width match consumes the `&` |
| NormalizationExamples.RewriteKeepsSecondSizeParam | index.js:223 | so `x?width=N&height=M` rewrites to `x?height=M` |
| NormalizationExamples.NormalizeKeepsSecondSizeParam | index.js:222-228 | and normalises to `x?height=M&format=png&quality=lossless` |
| NormalizationExamples.RewriteKeepsUnsizedQuery | index.js:223 | a query of two non-size parameters passes through unchanged |
| NormalizationExamples.NormalizeTwiceAppendsTwice | index.js:222-228 | a plain address gains the quality request once per pass |
| Job.ReadPrompt | index.js:79-115 | the prompt is read exactly when the first list is non-empty and its newest message has a markup element; the run reports no messages exactly when the retried list is missing or empty too |
| Job.Run | index.js:79-260 | the browser is closed unless a throw escapes; actions come in order submit, click, post; a post happens exactly when the run finishes; each action happens only under the conditions the script checks before it, including the prompt re-check before the click; each failure stops the run with exactly the actions taken before its step, and an escape leaves only the submission; an unread prompt ends the run at once with its reason, nothing done and the browser closed; it reports no messages exactly when the first list is empty and the retry is missing or empty, an unreadable prompt exactly when the prompt is not read otherwise, and a typing failure exactly when the prompt is read but typing fails; the lost-reply, lost-prompt, missing-button, reread-throw and click-throw outcomes each happen exactly when their cause holds (through `Submit`, `AfterReply` and `Press`) |
| Job.Submit | index.js:122-164 | a submission happens exactly when typing succeeds, and the run aborts as `SubmitFailed` exactly when typing fails; a click needs a timely reply and a passed re-check; failures and escapes stop with the actions taken before their step |
| Job.AfterReply | index.js:166-192 | the stage after the reply ends only in the failures it can log, or in an escape; a click needs the newest reply's U1 button and a re-read text that still contains the prompt; a failure or an escape leaves the actions taken before its step; it ends as `ReplyLost` exactly when no reply is found on re-render, escapes on the re-read exactly when a reply is found but the re-read throws, and ends as `PromptLost` exactly when the re-read text lacks the prompt |
| Job.Press | index.js:194-204 | a click happens only on a reply that has a U1 button; a missing button or a throwing click leaves only the submission; it ends as `NoUpscaleButton` exactly when the reply has no U1 button and escapes exactly when the button is there but the click throws |
| Job.RereadThrowLeavesBrowserOpen | index.js:185-192 | when the reply is found but reading its text throws, the run escapes with the browser left open and only the submission made |
| Job.ClickThrowLeavesBrowserOpen | index.js:194-204 | when the re-check passes and the U1 button is there but the click throws, the run escapes with the browser left open and only the submission made |
| Job.MissingButtonAborts | index.js:194-200 | when the re-check passes but the reply has no U1 button, the run aborts as `NoUpscaleButton`, closes the browser and has made only the submission |
| Job.Deliver | index.js:206-260 | the posted address is the normalised source of the first qualifying image of the newest message that has one; every webhook outcome closes the browser |
| Job.RunFinishesIffCompletes | index.js:79-254 | a run reaches the webhook exactly when its observations allow every step |
| Job.SubmitFinishesIff | index.js:122-164 | the submission stage finishes exactly when typing works, a timely reply exists, and the later stages finish |
| Job.AfterReplyFinishesIff | index.js:166-233 | the later stages finish exactly when the newest reply has a U1 button, its text still carries the prompt, the click goes through, and an image qualifies |
| Job.PressFinishesIff | index.js:194-233 | pressing finishes exactly when the button exists, the click goes through, and an image qualifies |
| Job.DeliverFinishesIff | index.js:206-239 | delivery finishes exactly when some message holds a qualifying image |
| Job.EmptyChatNeverSubmits | index.js:79-115 | an empty first list never leads to a submission, whatever the extra wait finds |
| Job.EmptyChatReportsNoMessages | index.js:79-97 | an empty first list with a missing or empty retry is exactly a no-messages abort with nothing done and the browser closed |
| Job.MarkupFallbackAborts | index.js:102-115 | without a markup element the run stops before submitting, even when the fallback read succeeds |
| Job.SubmitTimesOutIff | index.js:139-164 | after typing, the run times out exactly when the poll does, with only the submission done |
| Job.TimeoutIffNoTimelyReply | index.js:139-164 | the run times out exactly when no snapshot before the deadline shows a reply to the cleaned prompt |
| Job.SubmitTimeoutIffNoTimelyReply | index.js:139-164 | the same for the submission stage and any prompt |
| Job.DeliveryOnlyReported | index.js:241-260 | the webhook's answer changes neither the actions nor the browser release, only the reported outcome |
| Job.DeliverRedelivers | index.js:241-260 | delivery reports the webhook's answer and nothing else depends on it |
| Job.PressRedelivers | index.js:194-260 | the same for the pressing stage |
| Job.AfterReplyRedelivers | index.js:166-260 | the same for the stages after the reply |
| Job.SubmitRedelivers | index.js:122-260 | the same for the submission stage |
| Job.ClickComesSecond | index.js:194-204 | a click can only be the second action of a run |
| Job.NoButtonNoClick | index.js:194-200 | without a U1 button on the newest reply nothing is clicked |
| Job.NoButtonIgnoresUpscale | index.js:194-233 | without that button, the click and the later list do not affect the run |
| Job.AfterReplyIgnoresClick | index.js:166-233 | the same for the stages after the reply |
| Job.SubmitIgnoresClick | index.js:122-233 | the same for the submission stage |
| Job.AfterReplyRecheckPasses | index.js:173-192 | when the re-read text is the matched text, the re-check neither fails nor throws |
| Job.UnchangedReplyPassesRecheck | index.js:166-192 | a run whose reply reads the same twice never stops at the prompt re-check |
| Job.NewestReplyIsTheNewest | index.js:173-179 | the re-scan finds the newest reply |

## Left out

- The Express server and the `/trigger` endpoint (index.js:263-272): only one `runMidjourney` call is modelled. Concurrent runs triggered at once are not.
- Launching the browser, the session token, navigation and the wait for the chat UI (index.js:16-77): they happen before the first message list is read.
- Typing and clicking are booleans in `Env`. A partly typed prompt, and what the channel shows after it, are not modelled.
- Sleeps are not modelled; `Date.now()` is an abstract input (`Env.start`, `Snapshot.at`). The poll sees a finite trace of snapshots, one per clock check that passed. A trace that ends before a check fails counts as a timeout.
- `fetch`, the JSON body encoding and the environment variables are not modelled. The webhook's answer is a parameter. The `finally` closes the browser on every answer.
- Text.LowerStr: `toLowerCase` is modelled for ASCII letters only. Non-ASCII letters compare case-sensitively in the model.
- Text.IsSpace: characters are Unicode scalar values, not UTF-16 code units. This does not matter for the whitespace class, which lies in the Basic Multilingual Plane.
- Job.Run: only two throws outside any `try` are modelled: the re-read at index.js:187 and the click at index.js:202. These other awaits outside any `try` can also throw and leave `runMidjourney` without `browser.close()`, but the model has no escape for them:
  - `page.$$` at index.js:79, 143, 170 and 206;
  - `targetMessage.$` at index.js:195;
  - `waitForTimeout` at index.js:157, 167 and 204;
  - `message.$$` and `img.getAttribute` at index.js:211 and 214.

  So `released` is true exactly when neither of the two modelled throws happened.
- `console` logging is not modelled: it has no effect on the run.
- UrlNormalization.Rewrite: its own contract gives only the length bound. What it removes is stated by `UrlNormalization.RewriteKeepsOtherChars` and `UrlNormalization.RewriteFixedIffNoMatch`, and by the `NormalizationExamples` lemmas on concrete shapes: one parameter, one among others, and two (`RewriteDropsTwoSizeParams`, which shows the replacement is global). No single lemma characterises the output for every input.

=== FILE: image.dfy ===
/** Picks the upscaled image out of the chat after the U1 click
    (index.js:206-233): which `img` sources qualify, and the newest-first,
    in-order search for the first one that does. */
module ImageSelection {
  import opened Wrappers
  import opened Text
  import opened View

  /** The image host every qualifying source must mention. */
  const MediaHost := "media.discordapp.net"

  /** `\.(png|jpe?g|webp)(\?|$)` ignoring case, matched at index `i` of `s`
      with extension `ext`: a dot, the extension, then a `?` or the end. */
  predicate ExtensionWithAt(s: string, i: int, ext: string)
  {
    && 0 <= i && i + 1 + |ext| <= |s|
    && s[i] == '.'
    && LowerStr(s[i + 1..i + 1 + |ext|]) == ext
    && (i + 1 + |ext| == |s| || s[i + 1 + |ext|] == '?')
  }

  predicate ExtensionAt(s: string, i: int)
  {
    || ExtensionWithAt(s, i, "png")
    || ExtensionWithAt(s, i, "jpg")
    || ExtensionWithAt(s, i, "jpeg")
    || ExtensionWithAt(s, i, "webp")
  }

  /** The regular-expression test: a match anywhere in the source. */
  predicate HasImageExtension(s: string)
  {
    exists i | 0 <= i < |s| :: ExtensionAt(s, i)
  }

  /** The filter of index.js:215-221: a present, non-empty source on the media
      host with an image extension, mentioning neither `avatars` nor
      `attachments` (an empty source never contains the host, so the
      truthiness test needs no clause of its own). */
  predicate Qualifies(src: Option<string>)
  {
    && src.Some?
    && Contains(src.value, MediaHost)
    && HasImageExtension(src.value)
    && !Contains(src.value, "avatars")
    && !Contains(src.value, "attachments")
  }

  /** No image of the message qualifies. */
  predicate NoneQualifies(m: Message)
  {
    forall j :: 0 <= j < |m.images| ==> !Qualifies(m.images[j])
  }

  /** The inner `for (const img of imgs)` loop: the first qualifying image. */
  function FirstQualifying(images: seq<Option<string>>): (r: Option<nat>)
    ensures r.Some? ==> r.value < |images| && Qualifies(images[r.value])
    ensures r.Some? ==> forall j :: 0 <= j < r.value ==> !Qualifies(images[j])
    ensures r.None? <==> forall j :: 0 <= j < |images| ==> !Qualifies(images[j])
    decreases |images|
  {
    if |images| == 0 then None
    else if Qualifies(images[0]) then Some(0)
    else
      match FirstQualifying(images[1..])
      case Some(j) => Some(j + 1)
      case None => None
  }

  /** The chosen image: the message index, the image index within it, its source. */
  datatype Pick = Pick(message: nat, image: nat, src: string)

  /** The outer loop: messages from the newest down, stopping at the first
      message that yields a qualifying image. */
  function SelectImage(listing: Listing): (r: Option<Pick>)
    ensures r.Some? ==> && r.value.message < |listing|
                        && r.value.image < |listing[r.value.message].images|
                        && listing[r.value.message].images[r.value.image] == Some(r.value.src)
                        && Qualifies(Some(r.value.src))
    ensures r.Some? ==> forall j :: 0 <= j < r.value.image ==> !Qualifies(listing[r.value.message].images[j])
    ensures r.Some? ==> forall k :: r.value.message < k < |listing| ==> NoneQualifies(listing[k])
    ensures r.None? <==> forall k :: 0 <= k < |listing| ==> NoneQualifies(listing[k])
    decreases |listing|
  {
    if |listing| == 0 then None
    else
      var last := |listing| - 1;
      match FirstQualifying(listing[last].images)
      case Some(j) => Some(Pick(last, j, listing[last].images[j].value))
      case None => SelectImage(listing[..last])
  }

  /** A non-qualifying image (an avatar, an attachment preview, a foreign
      host) ahead of a qualifying one in the newest message is skipped, and
      the qualifying one after it is taken. */
  lemma SkipsExcludedImage(older: Listing, newest: Message, skipped: string, wanted: string)
    requires newest.images == [Some(skipped), Some(wanted)]
    requires !Qualifies(Some(skipped))
    requires Qualifies(Some(wanted))
    ensures SelectImage(older + [newest]) == Some(Pick(|older|, 1, wanted))
  {
    assert FirstQualifying(newest.images) == Some(1);
  }
}

=== FILE: job.dfy ===
/** One run of `runMidjourney` (index.js:79-260) once the chat page is open:
    read the newest message's prompt, clean it, submit it, poll for the
    bot's reply, re-check it, press U1, pick the upscaled image and post its
    address. Everything the script learns from the browser, the clock and the
    webhook is a field of `Env`; `Run` is the order in which the script
    consults them and where it gives up. */
module Job {
  import opened Wrappers
  import opened Text
  import opened View
  import opened PromptCleaning
  import opened ReplyDetection
  import opened ImageSelection
  import opened UrlNormalization

  /** What came back from the webhook POST: a 2xx status, any other status
      with its body, or a `fetch` that threw. */
  datatype Delivery = Accepted | Rejected(status: int, body: string) | SendFailed

  /** Everything the run observes, in the order the script asks for it. */
  datatype Env = Env(
    /** The first `$$` of the message list (index.js:79). */
    initial: Listing,
    /** The list after the extra `waitForSelector` (index.js:86); None when the wait threw. */
    retried: Option<Listing>,
    /** The typing and key presses of index.js:124-130 all went through. */
    typed: bool,
    /** `Date.now()` when the reply deadline is set (index.js:140). */
    start: int,
    /** One snapshot per passing clock check of the poll loop. */
    trace: seq<Snapshot>,
    /** The list re-read after the generation wait (index.js:170). */
    rendered: Listing,
    /** The second `innerText()` of the reply (index.js:187); None when it threw. */
    reread: Option<string>,
    /** `u1Button.click()` (index.js:202) went through. */
    clicked: bool,
    /** The list read after the upscale wait (index.js:206). */
    upscaled: Listing,
    /** The webhook's answer. */
    delivery: Delivery)

  /** The effects on the world outside the browser session: a prompt sent to
      the channel, the U1 press, the webhook POST with its JSON body. */
  datatype Action = Submitted(prompt: string) | ClickedUpscale | Posted(imageUrl: string, prompt: string)

  /** The position each action has in a run. */
  function Rank(a: Action): nat
  {
    match a
    case Submitted(_) => 0
    case ClickedUpscale => 1
    case Posted(_, _) => 2
  }

  /** Each action sits at its rank: the submission first, then the click,
      then the post, with nothing repeated or skipped. */
  predicate Ranked(actions: seq<Action>)
  {
    forall k :: 0 <= k < |actions| ==> Rank(actions[k]) == k
  }

  /** The reasons the script logs before closing the browser and returning. */
  datatype Failure =
    | NoMessages        // index.js:87-95
    | PromptUnreadable  // index.js:104-114
    | SubmitFailed      // index.js:132-135
    | ReplyTimeout      // index.js:160-164
    | ReplyLost         // index.js:181-185
    | PromptLost        // index.js:188-192
    | NoUpscaleButton   // index.js:196-200
    | NoImage           // index.js:235-239

  /** How many of the three actions a run has taken when it gives up for
      `why`: nothing before the submission, the submission alone until the
      click, the submission and the click once the image search starts. */
  function StepsBefore(why: Failure): nat
  {
    match why
    case NoMessages => 0
    case PromptUnreadable => 0
    case SubmitFailed => 0
    case ReplyTimeout => 1
    case ReplyLost => 1
    case PromptLost => 1
    case NoUpscaleButton => 1
    case NoImage => 2
  }

  /** The two awaits outside any `try`: a throw there leaves the function
      without reaching a `browser.close()`. */
  datatype EscapePoint = RereadThrew | ClickThrew

  datatype End = Aborted(why: Failure) | Escaped(at: EscapePoint) | Finished(delivery: Delivery)

  /** What a run did, how it ended, and whether the browser was closed. */
  datatype Report = Report(actions: seq<Action>, end: End, released: bool)

  datatype PromptRead = Read(raw: string) | Unread(why: Failure)

  /** The newest message of a non-empty listing. */
  function Latest(listing: Listing): Message
    requires |listing| > 0
  {
    listing[|listing| - 1]
  }

  /** index.js:79-115. The extra wait only decides how an empty list is
      reported: the prompt is always read from the first list, so an empty
      one makes `messages[messages.length - 1]` undefined and both reads in
      the `try` blocks throw. The `innerText` fallback, even when it reads
      something, is followed by a return. */
  function ReadPrompt(initial: Listing, retried: Option<Listing>): (r: PromptRead)
    ensures r.Read? <==> |initial| > 0 && Latest(initial).markup.Some?
    ensures r.Read? ==> Latest(initial).markup == Some(r.raw)
    ensures r.Unread? ==> r.why == NoMessages || r.why == PromptUnreadable
    ensures r.Unread? ==> (r.why == NoMessages <==> |initial| == 0 && (retried.None? || retried.value == []))
  {
    if |initial| == 0 then
      if retried.None? || retried.value == [] then Unread(NoMessages) else Unread(PromptUnreadable)
    else
      match Latest(initial).markup
      case None => Unread(PromptUnreadable)
      case Some(raw) => Read(raw)
  }

  /** The cleaned prompt of a run whose prompt read succeeds. */
  function PromptOf(env: Env): string
    requires ReadPrompt(env.initial, env.retried).Read?
  {
    CleanPrompt(ReadPrompt(env.initial, env.retried).raw)
  }

  /** Some snapshot taken before the deadline shows a reply to `cleaned`. */
  ghost predicate TimelyReply(env: Env, cleaned: string)
  {
    exists k, j :: && 0 <= k < |env.trace| && ChecksPassed(env.trace, env.start + ReplyWindow, k)
                   && 0 <= j < |env.trace[k].listing| && IsReply(env.trace[k].listing[j].text, cleaned)
  }

  /** The reply's text, read a second time, still contains the prompt
      ignoring case (index.js:187-192). */
  predicate Rechecked(env: Env, cleaned: string)
  {
    env.reread.Some? && Contains(LowerStr(env.reread.value), LowerStr(cleaned))
  }

  /** Message `t` is the newest reply to `cleaned` in the re-read list. */
  ghost predicate NewestRenderedReply(env: Env, cleaned: string, t: int)
  {
    && 0 <= t < |env.rendered| && IsReply(env.rendered[t].text, cleaned)
    && forall u :: t < u < |env.rendered| ==> !IsReply(env.rendered[u].text, cleaned)
  }

  /** The webhook is given the normalised address of the first qualifying
      image of the newest message of the upscaled list that has one. */
  ghost predicate PostsQualifyingImage(env: Env, a: Action)
  {
    exists k, j :: && 0 <= k < |env.upscaled| && 0 <= j < |env.upscaled[k].images|
                   && Qualifies(env.upscaled[k].images[j])
                   && (forall j' :: 0 <= j' < j ==> !Qualifies(env.upscaled[k].images[j']))
                   && (forall k' :: k < k' < |env.upscaled| ==> NoneQualifies(env.upscaled[k']))
                   && a.Posted? && a.imageUrl == Normalize(env.upscaled[k].images[j].value)
  }

  /** The run. */
  function Run(env: Env): (r: Report)
    ensures r.released <==> !r.end.Escaped?
    ensures |r.actions| <= 3 && Ranked(r.actions)
    ensures r.end.Finished? <==> |r.actions| == 3
    ensures r.end.Finished? ==> r.end.delivery == env.delivery
    ensures |r.actions| > 0 ==> && ReadPrompt(env.initial, env.retried).Read? && env.typed
                                && r.actions[0] == Submitted(PromptOf(env))
    ensures |r.actions| > 1 ==> && TimelyReply(env, r.actions[0].prompt)
                                && (exists t :: NewestRenderedReply(env, r.actions[0].prompt, t) && env.rendered[t].hasUpscale)
                                && Rechecked(env, r.actions[0].prompt) && env.clicked
    ensures |r.actions| > 2 ==> && PostsQualifyingImage(env, r.actions[2])
                                && r.actions[2].prompt == r.actions[0].prompt
    ensures r.end.Aborted? ==> |r.actions| == StepsBefore(r.end.why)
    ensures r.end.Escaped? ==> |r.actions| == 1
    ensures ReadPrompt(env.initial, env.retried).Unread? ==>
              r == Report([], Aborted(ReadPrompt(env.initial, env.retried).why), true)
    ensures r.end == Aborted(NoMessages) <==> |env.initial| == 0 && (env.retried.None? || env.retried.value == [])
    ensures r.end == Aborted(PromptUnreadable) <==>
              !(|env.initial| == 0 && (env.retried.None? || env.retried.value == [])) &&
              !(|env.initial| > 0 && Latest(env.initial).markup.Some?)
    ensures r.end == Aborted(SubmitFailed) <==> ReadPrompt(env.initial, env.retried).Read? && !env.typed
  {
    match ReadPrompt(env.initial, env.retried)
    case Unread(why) => Report([], Aborted(why), true)
    case Read(raw) => Submit(env, PromptOf(env))
  }

  /** index.js:122-164: typing the cleaned prompt, then polling for the reply. */
  function Submit(env: Env, cleaned: string): (r: Report)
    ensures r.released <==> !r.end.Escaped?
    ensures |r.actions| <= 3 && Ranked(r.actions)
    ensures r.end.Finished? <==> |r.actions| == 3
    ensures r.end.Finished? ==> r.end.delivery == env.delivery
    ensures |r.actions| > 0 <==> env.typed
    ensures r.end == Aborted(SubmitFailed) <==> !env.typed
    ensures |r.actions| > 0 ==> r.actions[0] == Submitted(cleaned)
    ensures |r.actions| > 1 ==> && TimelyReply(env, cleaned)
                                && (exists t :: NewestRenderedReply(env, cleaned, t) && env.rendered[t].hasUpscale)
                                && Rechecked(env, cleaned) && env.clicked
    ensures |r.actions| > 2 ==> PostsQualifyingImage(env, r.actions[2]) && r.actions[2].prompt == cleaned
    ensures r.end.Aborted? ==> |r.actions| == StepsBefore(r.end.why)
    ensures r.end.Escaped? ==> |r.actions| == 1
  {
    if !env.typed then Report([], Aborted(SubmitFailed), true)
    else
      match Poll(env.trace, cleaned, env.start + ReplyWindow)
      case TimedOut => Report([Submitted(cleaned)], Aborted(ReplyTimeout), true)
      case Found(k, j) =>
        assert IsReply(env.trace[k].listing[j].text, cleaned);
        AfterReply(env, cleaned)
  }

  /** index.js:166-192: the list is read again after the generation wait,
      its newest reply located again and that element's text read once more. */
  function AfterReply(env: Env, cleaned: string): (r: Report)
    ensures r.released <==> !r.end.Escaped?
    ensures r.end.Finished? <==> |r.actions| == 3
    ensures r.end.Finished? ==> r.end.delivery == env.delivery
    ensures 1 <= |r.actions| <= 3 && r.actions[0] == Submitted(cleaned)
    ensures Ranked(r.actions)
    ensures |r.actions| > 1 ==> && (exists t :: NewestRenderedReply(env, cleaned, t) && env.rendered[t].hasUpscale)
                                && Rechecked(env, cleaned) && env.clicked
    ensures |r.actions| > 2 ==> PostsQualifyingImage(env, r.actions[2]) && r.actions[2].prompt == cleaned
    ensures r.end.Aborted? ==> r.end.why == ReplyLost || r.end.why == PromptLost || r.end.why == NoUpscaleButton || r.end.why == NoImage
    ensures r.end.Aborted? ==> |r.actions| == StepsBefore(r.end.why)
    ensures r.end.Escaped? ==> |r.actions| == 1
    ensures r.end == Aborted(ReplyLost) <==> NewestReply(env.rendered, cleaned).None?
    ensures r.end == Escaped(RereadThrew) <==> NewestReply(env.rendered, cleaned).Some? && env.reread.None?
    ensures r.end == Aborted(PromptLost) <==> && NewestReply(env.rendered, cleaned).Some?
                                              && env.reread.Some? && !Rechecked(env, cleaned)
  {
    match NewestReply(env.rendered, cleaned)
    case None => Report([Submitted(cleaned)], Aborted(ReplyLost), true)
    case Some(t) =>
      match env.reread
      case None => Report([Submitted(cleaned)], Escaped(RereadThrew), false)
      case Some(_) =>
        if !Rechecked(env, cleaned) then Report([Submitted(cleaned)], Aborted(PromptLost), true)
        else
          assert NewestRenderedReply(env, cleaned, t);
          Press(env, cleaned, t)
  }

  /** index.js:194-204: the U1 button of the reply, and the click. */
  function Press(env: Env, cleaned: string, t: nat): (r: Report)
    requires t < |env.rendered|
    ensures r.released <==> !r.end.Escaped?
    ensures r.end.Finished? <==> |r.actions| == 3
    ensures r.end.Finished? ==> r.end.delivery == env.delivery
    ensures 1 <= |r.actions| <= 3 && r.actions[0] == Submitted(cleaned)
    ensures Ranked(r.actions)
    ensures |r.actions| > 1 ==> env.clicked && env.rendered[t].hasUpscale
    ensures |r.actions| > 2 ==> PostsQualifyingImage(env, r.actions[2]) && r.actions[2].prompt == cleaned
    ensures r.end.Aborted? ==> r.end.why == NoUpscaleButton || r.end.why == NoImage
    ensures r.end.Aborted? ==> |r.actions| == StepsBefore(r.end.why)
    ensures r.end.Escaped? ==> |r.actions| == 1
    ensures r.end == Aborted(NoUpscaleButton) <==> !env.rendered[t].hasUpscale
    ensures r.end == Escaped(ClickThrew) <==> env.rendered[t].hasUpscale && !env.clicked
  {
    if !env.rendered[t].hasUpscale then Report([Submitted(cleaned)], Aborted(NoUpscaleButton), true)
    else if !env.clicked then Report([Submitted(cleaned)], Escaped(ClickThrew), false)
    else Deliver(env, cleaned)
  }

  /** index.js:206-254: the newest qualifying image after the upscale wait,
      and the POST of its normalised address. Whatever the webhook answers,
      the `finally` closes the browser. */
  function Deliver(env: Env, cleaned: string): (r: Report)
    ensures r.released && !r.end.Escaped?
    ensures r.end.Finished? <==> |r.actions| == 3
    ensures r.end.Finished? ==> r.end.delivery == env.delivery
    ensures 2 <= |r.actions| <= 3 && r.actions[0] == Submitted(cleaned) && r.actions[1] == ClickedUpscale
    ensures Ranked(r.actions)
    ensures |r.actions| > 2 ==> && r.actions[2].Posted? && r.actions[2].prompt == cleaned
                                && PostsQualifyingImage(env, r.actions[2])
    ensures r.end.Aborted? ==> r.end.why == NoImage
  {
    match SelectImage(env.upscaled)
    case None => Report([Submitted(cleaned), ClickedUpscale], Aborted(NoImage), true)
    case Some(pick) =>
      assert env.upscaled[pick.message].images[pick.image] == Some(pick.src);
      Report([Submitted(cleaned), ClickedUpscale, Posted(Normalize(pick.src), cleaned)], Finished(env.delivery), true)
  }

  /** Everything a run needs to reach the webhook, stated without the
      order of the scans: a readable prompt that was typed, a reply seen
      before the deadline, a newest reply with a U1 button in the list read
      after the wait whose text still carries the prompt when read again,
      a click that went through, and some qualifying image afterwards. */
  ghost predicate Completes(env: Env)
  {
    && |env.initial| > 0 && Latest(env.initial).markup.Some? && env.typed
    && var p := CleanPrompt(Latest(env.initial).markup.value);
    && TimelyReply(env, p)
    && (exists t :: NewestRenderedReply(env, p, t) && env.rendered[t].hasUpscale)
    && Rechecked(env, p)
    && env.clicked
    && exists k :: 0 <= k < |env.upscaled| && !NoneQualifies(env.upscaled[k])
  }

  /** The newest reply is unique, so the scan finds the one the predicate names. */
  lemma NewestReplyIsTheNewest(env: Env, p: string, t: int)
    requires NewestRenderedReply(env, p, t)
    ensures NewestReply(env.rendered, p) == Some(t)
  {
  }

  /** A readable prompt goes on to the submission stage. */
  lemma RunSubmits(env: Env)
    requires ReadPrompt(env.initial, env.retried).Read?
    ensures Run(env) == Submit(env, PromptOf(env))
  {
  }

  lemma DeliverFinishesIff(env: Env, p: string)
    ensures Deliver(env, p).end.Finished? <==> exists k :: 0 <= k < |env.upscaled| && !NoneQualifies(env.upscaled[k])
  {
  }

  lemma PressFinishesIff(env: Env, p: string, t: nat)
    requires t < |env.rendered|
    ensures Press(env, p, t).end.Finished? <==>
              && env.rendered[t].hasUpscale && env.clicked
              && exists k :: 0 <= k < |env.upscaled| && !NoneQualifies(env.upscaled[k])
  {
    if env.rendered[t].hasUpscale && env.clicked {
      DeliverFinishesIff(env, p);
    }
  }

  lemma AfterReplyFinishesIff(env: Env, p: string)
    ensures AfterReply(env, p).end.Finished? <==>
              && (exists t :: NewestRenderedReply(env, p, t) && env.rendered[t].hasUpscale)
              && Rechecked(env, p)
              && env.clicked
              && exists k :: 0 <= k < |env.upscaled| && !NoneQualifies(env.upscaled[k])
  {
    var r := NewestReply(env.rendered, p);
    if r.Some? {
      assert NewestRenderedReply(env, p, r.value);
      PressFinishesIff(env, p, r.value);
    }
    if exists t :: NewestRenderedReply(env, p, t) && env.rendered[t].hasUpscale {
      var t :| NewestRenderedReply(env, p, t) && env.rendered[t].hasUpscale;
      NewestReplyIsTheNewest(env, p, t);
    }
  }

  lemma SubmitFinishesIff(env: Env, p: string)
    ensures Submit(env, p).end.Finished? <==> env.typed && TimelyReply(env, p) && AfterReply(env, p).end.Finished?
  {
    var deadline := env.start + ReplyWindow;
    if env.typed && TimelyReply(env, p) {
      var k, j :| && 0 <= k < |env.trace| && ChecksPassed(env.trace, deadline, k)
                  && 0 <= j < |env.trace[k].listing| && IsReply(env.trace[k].listing[j].text, p);
      assert NewestReply(env.trace[k].listing, p).Some?;
      assert Poll(env.trace, p, deadline).Found?;
    }
  }

  /** A run reaches the webhook exactly when its observations allow it. */
  lemma RunFinishesIffCompletes(env: Env)
    ensures Run(env).end.Finished? <==> Completes(env)
  {
    if ReadPrompt(env.initial, env.retried).Read? {
      RunSubmits(env);
      SubmitFinishesIff(env, PromptOf(env));
      AfterReplyFinishesIff(env, PromptOf(env));
    }
  }

  /** An empty first list never leads to a submission, whatever the extra
      wait finds: the prompt is read from the first list. */
  lemma EmptyChatNeverSubmits(env: Env)
    requires |env.initial| == 0
    ensures Run(env).actions == [] && Run(env).end.Aborted? && Run(env).released
    ensures forall other: Listing :: other != [] && env.retried.Some? && env.retried.value != [] ==>
              Run(env.(retried := Some(other))) == Run(env)
  {
  }

  /** An empty chat with an empty or failed retry is reported as having no
      messages, with nothing done and the browser closed. */
  lemma EmptyChatReportsNoMessages(env: Env)
    requires |env.initial| == 0 && (env.retried.None? || env.retried.value == [])
    ensures Run(env) == Report([], Aborted(NoMessages), true)
  {
  }

  /** When the newest message has no markup element the run gives up, even
      though the `innerText` fallback may read the message's text. */
  lemma MarkupFallbackAborts(env: Env)
    requires |env.initial| > 0 && Latest(env.initial).markup.None?
    ensures Run(env) == Report([], Aborted(PromptUnreadable), true)
  {
  }

  /** Once the poll finds a reply the rest of the run is the reply stage. */
  lemma SubmitReachesReply(env: Env, p: string)
    requires env.typed && Poll(env.trace, p, env.start + ReplyWindow).Found?
    ensures Submit(env, p) == AfterReply(env, p)
  {
  }

  lemma SubmitTimesOutIff(env: Env, p: string)
    requires env.typed
    ensures Submit(env, p).end == Aborted(ReplyTimeout) <==> Poll(env.trace, p, env.start + ReplyWindow).TimedOut?
    ensures Submit(env, p).end == Aborted(ReplyTimeout) ==> Submit(env, p).actions == [Submitted(p)]
  {
    if Poll(env.trace, p, env.start + ReplyWindow).Found? {
      SubmitReachesReply(env, p);
    }
  }

  /** With a clock that does not run backwards, the run stops after the
      submission for want of a reply exactly when no snapshot taken before
      the deadline shows one; a timed-out run never clicks or posts. */
  lemma TimeoutIffNoTimelyReply(env: Env)
    requires ReadPrompt(env.initial, env.retried).Read? && env.typed
    requires Monotone(env.trace)
    ensures Run(env).end == Aborted(ReplyTimeout) <==>
              forall k :: 0 <= k < |env.trace| && env.trace[k].at < env.start + ReplyWindow ==>
                            NewestReply(env.trace[k].listing, PromptOf(env)).None?
    ensures Run(env).end == Aborted(ReplyTimeout) ==> Run(env).actions == [Submitted(PromptOf(env))]
  {
    var p := PromptOf(env);
    RunSubmits(env);
    SubmitTimeoutIffNoTimelyReply(env, p);
  }

  lemma SubmitTimeoutIffNoTimelyReply(env: Env, p: string)
    requires env.typed
    requires Monotone(env.trace)
    ensures Submit(env, p).end == Aborted(ReplyTimeout) <==>
              forall k :: 0 <= k < |env.trace| && env.trace[k].at < env.start + ReplyWindow ==>
                            NewestReply(env.trace[k].listing, p).None?
    ensures Submit(env, p).end == Aborted(ReplyTimeout) ==> Submit(env, p).actions == [Submitted(p)]
  {
    SubmitTimesOutIff(env, p);
    PollTimesOutIffNoTimelyReply(env.trace, p, env.start + ReplyWindow);
  }

  /** The report of a run whose webhook had answered `d` instead. */
  function Redeliver(r: Report, d: Delivery): Report
  {
    if r.end.Finished? then r.(end := Finished(d)) else r
  }

  lemma DeliverRedelivers(env: Env, p: string, d: Delivery)
    ensures Deliver(env.(delivery := d), p) == Redeliver(Deliver(env, p), d)
  {
  }

  lemma PressRedelivers(env: Env, p: string, t: nat, d: Delivery)
    requires t < |env.rendered|
    ensures Press(env.(delivery := d), p, t) == Redeliver(Press(env, p, t), d)
  {
    DeliverRedelivers(env, p, d);
  }

  lemma AfterReplyRedelivers(env: Env, p: string, d: Delivery)
    ensures AfterReply(env.(delivery := d), p) == Redeliver(AfterReply(env, p), d)
  {
    var r := NewestReply(env.rendered, p);
    if r.Some? {
      PressRedelivers(env, p, r.value, d);
    }
  }

  lemma SubmitRedelivers(env: Env, p: string, d: Delivery)
    ensures Submit(env.(delivery := d), p) == Redeliver(Submit(env, p), d)
  {
    AfterReplyRedelivers(env, p, d);
  }

  /** The webhook's answer is only reported: it changes neither what the run
      did nor whether the browser was closed. */
  lemma DeliveryOnlyReported(env: Env, d: Delivery)
    ensures Run(env.(delivery := d)).actions == Run(env).actions
    ensures Run(env.(delivery := d)).released == Run(env).released
    ensures Run(env).end.Finished? ==> Run(env.(delivery := d)).end == Finished(d)
    ensures !Run(env).end.Finished? ==> Run(env.(delivery := d)).end == Run(env).end
  {
    var env' := env.(delivery := d);
    if ReadPrompt(env.initial, env.retried).Read? {
      RunSubmits(env);
      RunSubmits(env');
      SubmitRedelivers(env, PromptOf(env), d);
    }
  }

  lemma AfterReplyIgnoresClick(env: Env, p: string, clicked: bool, upscaled: Listing)
    requires forall t :: NewestRenderedReply(env, p, t) ==> !env.rendered[t].hasUpscale
    ensures AfterReply(env.(clicked := clicked, upscaled := upscaled), p) == AfterReply(env, p)
  {
    var r := NewestReply(env.rendered, p);
    if r.Some? {
      assert NewestRenderedReply(env, p, r.value);
    }
  }

  /** In a run's ranked actions a click can only sit at position one. */
  lemma ClickComesSecond(a: seq<Action>)
    requires Ranked(a)
    ensures ClickedUpscale in a ==> |a| > 1
  {
    if ClickedUpscale in a {
      var k :| 0 <= k < |a| && a[k] == ClickedUpscale;
      assert Rank(a[k]) == 1;
    }
  }

  /** Without a U1 button on the newest reply nothing is clicked. */
  lemma NoButtonNoClick(env: Env)
    requires ReadPrompt(env.initial, env.retried).Read?
    requires forall t :: NewestRenderedReply(env, PromptOf(env), t) ==> !env.rendered[t].hasUpscale
    ensures ClickedUpscale !in Run(env).actions
  {
    ClickComesSecond(Run(env).actions);
  }

  /** ... and what a click or the later list would have shown does not matter. */
  lemma NoButtonIgnoresUpscale(env: Env, clicked: bool, upscaled: Listing)
    requires ReadPrompt(env.initial, env.retried).Read?
    requires forall t :: NewestRenderedReply(env, PromptOf(env), t) ==> !env.rendered[t].hasUpscale
    ensures Run(env.(clicked := clicked, upscaled := upscaled)) == Run(env)
  {
    var env' := env.(clicked := clicked, upscaled := upscaled);
    assert PromptOf(env') == PromptOf(env);
    RunSubmits(env);
    RunSubmits(env');
    SubmitIgnoresClick(env, PromptOf(env), clicked, upscaled);
  }

  lemma SubmitIgnoresClick(env: Env, p: string, clicked: bool, upscaled: Listing)
    requires forall t :: NewestRenderedReply(env, p, t) ==> !env.rendered[t].hasUpscale
    ensures Submit(env.(clicked := clicked, upscaled := upscaled), p) == Submit(env, p)
  {
    AfterReplyIgnoresClick(env, p, clicked, upscaled);
  }

  lemma AfterReplyRecheckPasses(env: Env, p: string)
    requires NewestReply(env.rendered, p).Some?
    requires env.reread == Some(env.rendered[NewestReply(env.rendered, p).value].text)
    ensures AfterReply(env, p).end != Aborted(PromptLost)
    ensures AfterReply(env, p).end != Escaped(RereadThrew)
  {
    RecheckAfterReacquireHolds(env.rendered, p, env.reread.value);
  }

  /** When the reply's text reads the same the second time, the re-check
      that follows the generation wait passes. */
  lemma UnchangedReplyPassesRecheck(env: Env)
    requires ReadPrompt(env.initial, env.retried).Read? && env.typed
    requires NewestReply(env.rendered, PromptOf(env)).Some?
    requires env.reread == Some(env.rendered[NewestReply(env.rendered, PromptOf(env)).value].text)
    ensures Run(env).end != Aborted(PromptLost)
    ensures Run(env).end != Escaped(RereadThrew)
  {
    var p := PromptOf(env);
    RunSubmits(env);
    if Poll(env.trace, p, env.start + ReplyWindow).Found? {
      SubmitReachesReply(env, p);
      AfterReplyRecheckPasses(env, p);
    }
  }

  /** The reacquired reply's text cannot be read a second time: the throw
      leaves the run after the submission alone, with the browser open. */
  lemma RereadThrowLeavesBrowserOpen(env: Env)
    requires ReadPrompt(env.initial, env.retried).Read? && env.typed
    requires Poll(env.trace, PromptOf(env), env.start + ReplyWindow).Found?
    requires NewestReply(env.rendered, PromptOf(env)).Some? && env.reread.None?
    ensures Run(env) == Report([Submitted(PromptOf(env))], Escaped(RereadThrew), false)
  {
    RunSubmits(env);
    SubmitReachesReply(env, PromptOf(env));
  }

  /** The U1 click throws: the same, after the submission alone, with the
      browser open. */
  lemma ClickThrowLeavesBrowserOpen(env: Env)
    requires ReadPrompt(env.initial, env.retried).Read? && env.typed
    requires Poll(env.trace, PromptOf(env), env.start + ReplyWindow).Found?
    requires NewestReply(env.rendered, PromptOf(env)).Some? && Rechecked(env, PromptOf(env))
    requires env.rendered[NewestReply(env.rendered, PromptOf(env)).value].hasUpscale && !env.clicked
    ensures Run(env) == Report([Submitted(PromptOf(env))], Escaped(ClickThrew), false)
  {
    RunSubmits(env);
    SubmitReachesReply(env, PromptOf(env));
  }

  /** The reacquired reply has no U1 button: the run gives up after the
      submission and closes the browser. */
  lemma MissingButtonAborts(env: Env)
    requires ReadPrompt(env.initial, env.retried).Read? && env.typed
    requires Poll(env.trace, PromptOf(env), env.start + ReplyWindow).Found?
    requires NewestReply(env.rendered, PromptOf(env)).Some? && Rechecked(env, PromptOf(env))
    requires !env.rendered[NewestReply(env.rendered, PromptOf(env)).value].hasUpscale
    ensures Run(env) == Report([Submitted(PromptOf(env))], Aborted(NoUpscaleButton), true)
  {
    RunSubmits(env);
    SubmitReachesReply(env, PromptOf(env));
  }
}

=== FILE: normalize.dfy ===
/** Canonical form of the selected image source (index.js:222-228): drop
    `width`/`height` query parameters with the regular expression
    `/([&?])(width|height)=\d+&?/g`, drop one dangling separator at the end,
    and ask for a lossless PNG. */
module UrlNormalization {
  import opened Wrappers
  import opened Text

  /** The quality request appended after `?` or `&`. */
  const Suffix := "format=png&quality=lossless"

  /** `\d`: an ASCII decimal digit. */
  predicate IsDigit(c: char)
  {
    '0' <= c <= '9'
  }

  /** The query separators of the pattern's capture group `[&?]`. */
  predicate IsSeparator(c: char)
  {
    c == '&' || c == '?'
  }

  /** Characters a size-parameter match may consume besides its leading
      separator: the letters of `width` and `height`, `=`, digits and `&`. */
  predicate Erasable(c: char)
  {
    || IsDigit(c) || c == '=' || c == '&'
    || c == 'w' || c == 'i' || c == 'd' || c == 't' || c == 'h' || c == 'e' || c == 'g'
  }

  /** End of the run of digits that starts at index `j`. */
  function DigitsEnd(s: string, j: nat): (e: nat)
    requires j <= |s|
    ensures j <= e <= |s|
    ensures forall k :: j <= k < e ==> IsDigit(s[k])
    ensures e == |s| || !IsDigit(s[e])
    decreases |s| - j
  {
    if j < |s| && IsDigit(s[j]) then DigitsEnd(s, j + 1) else j
  }

  /** The pattern can match at index 0: a separator, a parameter name and `=`,
      then at least one digit. */
  predicate SizeParamStarts(s: string)
  {
    && |s| > 0 && IsSeparator(s[0])
    && (|| (OccursAt(s, "width=", 1) && 7 < |s| && IsDigit(s[7]))
        || (OccursAt(s, "height=", 1) && 8 < |s| && IsDigit(s[8])))
  }

  /** Length of the match at index 0, if any. `\d+` and `&?` are greedy and
      the pattern never needs to backtrack, so the match runs over the whole
      digit run and the `&` right after it, when there is one. */
  function SizeParamLength(s: string): (r: Option<nat>)
    ensures r.Some? <==> SizeParamStarts(s)
    ensures r.Some? ==> 8 <= r.value <= |s| && forall k :: 1 <= k < r.value ==> Erasable(s[k])
    ensures r.Some? ==> forall k :: (if OccursAt(s, "width=", 1) then 7 else 8) <= k < r.value - 1 ==> IsDigit(s[k])
    ensures r.Some? && IsDigit(s[r.value - 1]) ==> r.value == |s| || (s[r.value] != '&' && !IsDigit(s[r.value]))
    ensures r.Some? && !IsDigit(s[r.value - 1]) ==> s[r.value - 1] == '&' && IsDigit(s[r.value - 2])
  {
    if |s| == 0 || !IsSeparator(s[0]) then None
    else
      assert OccursAt(s, "width=", 1) ==> s[1] == "width="[0];
      assert OccursAt(s, "height=", 1) ==> s[1] == "height="[0];
      var nameEnd := if OccursAt(s, "width=", 1) then 7 else if OccursAt(s, "height=", 1) then 8 else 0;
      if nameEnd == 0 then None
      else
        assert forall k :: 1 <= k < nameEnd ==> Erasable(s[k]) by {
          forall k | 1 <= k < nameEnd
            ensures Erasable(s[k])
          {
            if nameEnd == 7 {
              assert s[k] == "width="[k - 1];
            } else {
              assert s[k] == "height="[k - 1];
            }
          }
        }
        var e := DigitsEnd(s, nameEnd);
        if e == nameEnd then None
        else if e < |s| && s[e] == '&' then Some(e + 1)
        else Some(e)
  }

  /** The global replacement: the engine scans left to right; where a match
      starts it keeps the captured separator and resumes after the match,
      elsewhere it keeps the character and moves one on. Matches therefore
      never overlap, and a separator consumed as a match's trailing `&`
      cannot start the next match. */
  function Rewrite(s: string): (r: string)
    ensures |r| <= |s|
    decreases |s|
  {
    if |s| == 0 then []
    else
      match SizeParamLength(s)
      case Some(n) => [s[0]] + Rewrite(s[n..])
      case None => [s[0]] + Rewrite(s[1..])
  }

  /** `replace(/[&?]$/, '')`: one separator at the very end goes. */
  function DropTrailingSeparator(s: string): (r: string)
    ensures |s| - 1 <= |r| <= |s| && r == s[..|r|]
    ensures |r| < |s| <==> |s| > 0 && IsSeparator(s[|s| - 1])
  {
    if |s| > 0 && IsSeparator(s[|s| - 1]) then s[..|s| - 1] else s
  }

  /** The normalised source: the rewritten and trimmed source, a separator,
      and the quality request. The separator is `?` exactly when no `?`
      precedes it. */
  function Normalize(src: string): (r: string)
    ensures |r| > |Suffix| && r[|r| - |Suffix|..] == Suffix
    ensures r[..|r| - |Suffix| - 1] == DropTrailingSeparator(Rewrite(src))
    ensures IsSeparator(r[|r| - |Suffix| - 1])
    ensures r[|r| - |Suffix| - 1] == '?' <==> '?' !in r[..|r| - |Suffix| - 1]
  {
    var base := DropTrailingSeparator(Rewrite(src));
    var sep := if '?' in base then '&' else '?';
    var r := base + [sep] + Suffix;
    assert r[..|r| - |Suffix| - 1] == base;
    assert r[|r| - |Suffix| - 1] == sep;
    r
  }

  /** A normalised address always carries a query string. */
  lemma NormalizeHasQuery(src: string)
    ensures '?' in Normalize(src)
  {
    var r := Normalize(src);
    var n := |r| - |Suffix| - 1;
    if r[n] != '?' {
      var k :| 0 <= k < n && r[..n][k] == '?';
      assert r[k] == '?';
    }
  }

  /** The rewrite removes only erasable characters: every other character
      (in particular `?` and `q`) occurs as often after it as before. */
  lemma {:induction false} RewriteKeepsOtherChars(c: char, s: string)
    requires !Erasable(c)
    ensures multiset(Rewrite(s))[c] == multiset(s)[c]
    decreases |s|
  {
    if |s| > 0 {
      var n := match SizeParamLength(s) case Some(n) => n case None => 1;
      assert Rewrite(s) == [s[0]] + Rewrite(s[n..]);
      RewriteKeepsOtherChars(c, s[n..]);
      CountSkipsErased(s, n, c);
      assert multiset([s[0]] + Rewrite(s[n..])) == multiset([s[0]]) + multiset(Rewrite(s[n..]));
    }
  }

  /** Skipping characters other than `c` does not change how many `c` there are. */
  lemma CountSkipsErased(s: string, n: nat, c: char)
    requires 1 <= n <= |s|
    requires forall k :: 1 <= k < n ==> Erasable(s[k])
    requires !Erasable(c)
    ensures multiset(s)[c] == multiset([s[0]])[c] + multiset(s[n..])[c]
  {
    var skipped := s[1..n];
    assert s == [s[0]] + skipped + s[n..];
    assert c !in skipped;
  }

  /** Where the pattern matches somewhere, the rewrite shortens the source. */
  lemma {:induction false} RewriteShrinksOnMatch(s: string, k: nat)
    requires k < |s| && SizeParamStarts(s[k..])
    ensures |Rewrite(s)| < |s|
    decreases |s|
  {
    if !SizeParamStarts(s) {
      assert k > 0;
      assert s[1..][k - 1..] == s[k..];
      RewriteShrinksOnMatch(s[1..], k - 1);
    }
  }

  /** A source where the pattern matches nowhere is left as it is. */
  lemma {:induction false} RewriteKeepsMatchFree(s: string)
    requires forall k :: 0 <= k < |s| ==> !SizeParamStarts(s[k..])
    ensures Rewrite(s) == s
    decreases |s|
  {
    if |s| > 0 {
      assert s[0..] == s;
      forall k | 0 <= k < |s[1..]|
        ensures !SizeParamStarts(s[1..][k..])
      {
        assert s[1..][k..] == s[k + 1..];
      }
      RewriteKeepsMatchFree(s[1..]);
      assert s == [s[0]] + s[1..];
    }
  }

  /** The rewrite changes a source exactly when the pattern matches in it. */
  lemma RewriteFixedIffNoMatch(s: string)
    ensures Rewrite(s) == s <==> forall k :: 0 <= k < |s| ==> !SizeParamStarts(s[k..])
  {
    if forall k :: 0 <= k < |s| ==> !SizeParamStarts(s[k..]) {
      RewriteKeepsMatchFree(s);
    } else {
      var k :| 0 <= k < |s| && SizeParamStarts(s[k..]);
      RewriteShrinksOnMatch(s, k);
    }
  }

  /** The quality request holds a single `q`, the one of `quality`; the
      string facts are split into one lemma each to keep them cheap. */
  lemma SuffixHasOneQ()
    ensures multiset(Suffix)['q'] == 1
  {
    SuffixSplits();
    OneQInQuality();
    NoQInFormat();
    CountAppend("format=png&", "q" + "uality=lossless", 'q');
  }

  lemma SuffixSplits()
    ensures Suffix == "format=png&" + ("q" + "uality=lossless")
  {
  }

  lemma OneQInQuality()
    ensures multiset("q" + "uality=lossless")['q'] == 1
  {
    assert 'q' !in "uality=lossless";
    CountLeading('q', "uality=lossless");
  }

  /** A character in front of a text without it occurs once. */
  lemma CountLeading(c: char, x: string)
    requires c !in x
    ensures multiset([c] + x)[c] == 1
  {
    assert multiset([c] + x) == multiset([c]) + multiset(x);
  }

  lemma CountAppend(a: string, b: string, c: char)
    ensures multiset(a + b)[c] == multiset(a)[c] + multiset(b)[c]
  {
    assert multiset(a + b) == multiset(a) + multiset(b);
  }

  lemma NoQInFormat()
    ensures multiset("format=png&")['q'] == 0
  {
    assert 'q' !in "format=png&";
    AbsentCountsZero("format=png&", 'q');
  }

  lemma AbsentCountsZero(s: string, c: char)
    requires c !in s
    ensures multiset(s)[c] == 0
  {
  }

  /** Dropping a trailing separator never drops a `q`. */
  lemma DropTrailingSeparatorKeepsQ(s: string)
    ensures multiset(DropTrailingSeparator(s))['q'] == multiset(s)['q']
  {
    if |s| > 0 && IsSeparator(s[|s| - 1]) {
      assert s == s[..|s| - 1] + [s[|s| - 1]];
    }
  }

  /** Normalising adds exactly one `q`, the one of `quality`. */
  lemma NormalizeAddsOneQuality(src: string)
    ensures multiset(Normalize(src))['q'] == multiset(src)['q'] + 1
  {
    QCountOfShape(src, Normalize(src));
  }

  /** The `q` count of anything shaped like a normalised source. */
  lemma QCountOfShape(src: string, r: string)
    requires |r| > |Suffix| && r[|r| - |Suffix|..] == Suffix
    requires r[..|r| - |Suffix| - 1] == DropTrailingSeparator(Rewrite(src))
    requires IsSeparator(r[|r| - |Suffix| - 1])
    ensures multiset(r)['q'] == multiset(src)['q'] + 1
  {
    var n := |r| - |Suffix| - 1;
    QIsNotErasable();
    RewriteKeepsOtherChars('q', src);
    DropTrailingSeparatorKeepsQ(Rewrite(src));
    SuffixHasOneQ();
    QAroundSeparator(r, n);
  }

  lemma QIsNotErasable()
    ensures !Erasable('q')
  {
  }

  lemma QAroundSeparator(r: string, n: nat)
    requires n < |r| && IsSeparator(r[n])
    ensures multiset(r)['q'] == multiset(r[..n])['q'] + multiset(r[n + 1..])['q']
  {
    SplitAround(r, n);
  }

  /** Normalisation is not idempotent: a second pass always appends a second
      quality request, since nothing checks for the first. */
  lemma NormalizeNotIdempotent(src: string)
    ensures Normalize(Normalize(src)) != Normalize(src)
  {
    NormalizeAddsOneQuality(src);
    NormalizeAddsOneQuality(Normalize(src));
  }
}

=== FILE: normalize_examples.dfy ===
/** The behaviour of the source normalisation on the query shapes it meets,
    stated for any separator-free prefix and any digit strings: where the
    global replacement does what the obvious reading says, and where the
    `&` that `&?` consumes makes it do something else. */
module NormalizationExamples {
  import opened Wrappers
  import opened Text
  import opened UrlNormalization

  /** No `&` or `?` anywhere in `a`. */
  predicate Plain(a: string)
  {
    forall k :: 0 <= k < |a| ==> !IsSeparator(a[k])
  }

  predicate AllDigits(d: string)
  {
    |d| > 0 && forall k :: 0 <= k < |d| ==> IsDigit(d[k])
  }

  /** Text without separators passes through the rewrite untouched, and so
      only shifts where the scan starts looking. */
  lemma {:induction false} RewriteSkipsPlainPrefix(a: string, b: string)
    requires Plain(a)
    ensures Rewrite(a + b) == a + Rewrite(b)
    decreases |a|
  {
    if |a| > 0 {
      assert (a + b)[0] == a[0];
      assert (a + b)[1..] == a[1..] + b;
      RewriteSkipsPlainPrefix(a[1..], b);
      assert a == [a[0]] + a[1..];
    } else {
      assert a + b == b;
    }
  }

  /** Text without separators is left as it is. */
  lemma RewriteKeepsPlain(a: string)
    requires Plain(a)
    ensures Rewrite(a) == a
  {
    RewriteSkipsPlainPrefix(a, []);
    assert a + [] == a;
  }

  /** Where a match starts, the scan keeps its separator and resumes after it. */
  lemma RewriteJumps(s: string, n: nat)
    requires |s| > 0 && SizeParamLength(s) == Some(n)
    ensures Rewrite(s) == [s[0]] + Rewrite(s[n..])
  {
  }

  /** Where no match starts, the scan keeps the character and moves one on. */
  lemma RewriteStepsOver(s: string)
    requires |s| > 0 && SizeParamLength(s) == None
    ensures Rewrite(s) == [s[0]] + Rewrite(s[1..])
  {
  }

  /** A separator followed by anything but `w` or `h` starts no match. */
  lemma NoSizeParamAt(s: string)
    requires |s| > 1 && s[1] != 'w' && s[1] != 'h'
    ensures SizeParamLength(s) == None
  {
  }

  /** A parameter name and its digits hold no separator. */
  lemma PlainParam(name: string, d: string)
    requires name == "width=" || name == "height="
    requires AllDigits(d)
    ensures Plain(name + d)
  {
    var t := name + d;
    forall k | 0 <= k < |t|
      ensures !IsSeparator(t[k])
    {
      if k >= |name| {
        assert t[k] == d[k - |name|];
      } else {
        assert t[k] == name[k];
      }
    }
  }

  lemma {:induction false} DigitsEndAt(s: string, j: nat, e: nat)
    requires j <= e <= |s|
    requires forall k :: j <= k < e ==> IsDigit(s[k])
    requires e == |s| || !IsDigit(s[e])
    ensures DigitsEnd(s, j) == e
    decreases e - j
  {
    if j < e {
      DigitsEndAt(s, j + 1, e);
    }
  }

  /** A separator, a parameter name with `=`, a digit run and whatever does
      not continue the run: the match covers the run and a following `&`. */
  lemma SizeParamMatch(sep: char, name: string, d: string, rest: string)
    requires IsSeparator(sep)
    requires name == "width=" || name == "height="
    requires AllDigits(d)
    requires rest == [] || !IsDigit(rest[0])
    ensures SizeParamLength([sep] + name + d + rest)
            == Some(1 + |name| + |d| + (if rest != [] && rest[0] == '&' then 1 else 0))
  {
    var s := [sep] + name + d + rest;
    var e := 1 + |name| + |d|;
    assert s[1..1 + |name|] == name;
    assert s[1] == name[0];
    assert s[1 + |name|..e] == d;
    DigitsEndAt(s, 1 + |name|, e);
    if rest != [] {
      assert s[e] == rest[0];
    }
  }

  /** Normalisation is the trimmed rewrite, the separator it calls for, and the quality request. */
  lemma NormalizeFromBase(src: string, base: string)
    requires DropTrailingSeparator(Rewrite(src)) == base
    ensures Normalize(src) == base + [if '?' in base then '&' else '?'] + Suffix
  {
    var r := Normalize(src);
    SplitAround(r, |r| - |Suffix| - 1);
  }

  /** Past a separator-free prefix, a match whose remainder holds no
      separator leaves the separator and the remainder. */
  lemma RewriteAfterMatch(p: string, s: string, n: nat)
    requires Plain(p)
    requires |s| > 0 && SizeParamLength(s) == Some(n)
    requires Plain(s[n..])
    ensures Rewrite(p + s) == p + [s[0]] + s[n..]
  {
    RewriteSkipsPlainPrefix(p, s);
    RewriteJumps(s, n);
    RewriteKeepsPlain(s[n..]);
  }

  lemma Regroup<T>(p: seq<T>, a: seq<T>, b: seq<T>, c: seq<T>, e: seq<T>, f: seq<T>, g: seq<T>, h: seq<T>)
    ensures p + a + b + c + e + f + g + h == p + (a + (b + (c + e + f + (g + h))))
  {
  }

  lemma RegroupRight<T>(p: seq<T>, a: seq<T>, b: seq<T>, c: seq<T>, e: seq<T>)
    ensures p + a + b + c + e == p + (a + (b + (c + e)))
  {
  }

  lemma RegroupLeft<T>(p: seq<T>, a: seq<T>, b: seq<T>, c: seq<T>)
    ensures p + (a + b + c) == p + a + b + c
  {
  }

  lemma Regroup4<T>(p: seq<T>, a: seq<T>, b: seq<T>, c: seq<T>, e: seq<T>)
    ensures p + (a + (b + c + e)) == p + a + b + c + e
  {
  }

  /** A lone size parameter goes, and with it the separator left dangling:
      `x.png?width=256` becomes `x.png?format=png&quality=lossless`. */
  lemma NormalizeDropsLoneSizeParam(p: string, name: string, d: string)
    requires Plain(p)
    requires name == "width=" || name == "height="
    requires AllDigits(d)
    ensures Normalize(p + "?" + name + d) == p + "?" + Suffix
  {
    var tail := "?" + name + d;
    assert p + "?" + name + d == p + tail;
    RewriteSkipsPlainPrefix(p, tail);
    SizeParamMatch('?', name, d, []);
    assert tail == ['?'] + name + d + [];
    RewriteJumps(tail, |tail|);
    assert tail[|tail|..] == [];
    assert Rewrite(p + tail) == p + "?";
    assert DropTrailingSeparator(p + "?") == p;
    NormalizeFromBase(p + tail, p);
  }

  /** A size parameter between two others goes with the `&` after it, and
      its neighbours join up. */
  lemma RewriteDropsInnerSizeParam(p: string, q1: string, name: string, d: string, q2: string)
    requires Plain(p) && Plain(q1) && Plain(q2)
    requires |q1| > 0 && q1[0] != 'w' && q1[0] != 'h'
    requires |q2| > 0
    requires name == "width=" || name == "height="
    requires AllDigits(d)
    ensures Rewrite(p + "?" + q1 + "&" + name + d + "&" + q2) == p + "?" + q1 + "&" + q2
  {
    var param := "&" + name + d + ("&" + q2);
    var n := 1 + |name| + |d| + 1;
    assert SizeParamLength(param) == Some(n) by {
      SizeParamMatch('&', name, d, "&" + q2);
    }
    assert param[n..] == q2;
    assert Rewrite(q1 + param) == q1 + "&" + q2 by {
      RewriteAfterMatch(q1, param, n);
    }
    var query := "?" + (q1 + param);
    assert Rewrite(query) == "?" + (q1 + "&" + q2) by {
      assert query[1] == q1[0];
      NoSizeParamAt(query);
      RewriteStepsOver(query);
      assert query[1..] == q1 + param;
    }
    RewriteSkipsPlainPrefix(p, query);
    Regroup(p, "?", q1, "&", name, d, "&", q2);
    Regroup4(p, "?", q1, "&", q2);
  }

  /** So `x.png?a=1&width=2&b=3` becomes
      `x.png?a=1&b=3&format=png&quality=lossless`. */
  lemma NormalizeDropsInnerSizeParam(p: string, q1: string, name: string, d: string, q2: string)
    requires Plain(p) && Plain(q1) && Plain(q2)
    requires |q1| > 0 && q1[0] != 'w' && q1[0] != 'h'
    requires |q2| > 0
    requires name == "width=" || name == "height="
    requires AllDigits(d)
    ensures Normalize(p + "?" + q1 + "&" + name + d + "&" + q2) == p + "?" + q1 + "&" + q2 + "&" + Suffix
  {
    var base := p + "?" + q1 + "&" + q2;
    RewriteDropsInnerSizeParam(p, q1, name, d, q2);
    assert base[|base| - 1] == q2[|q2| - 1];
    assert base[|p|] == '?';
    NormalizeFromBase(p + "?" + q1 + "&" + name + d + "&" + q2, base);
  }

  /** The `&` after the first parameter is consumed by its match, so the
      second parameter has no separator left to start a match of its own
      and survives the rewrite. */
  lemma RewriteKeepsSecondSizeParam(p: string, d1: string, d2: string)
    requires Plain(p)
    requires AllDigits(d1) && AllDigits(d2)
    ensures Rewrite(p + "?width=" + d1 + "&height=" + d2) == p + "?height=" + d2
  {
    var second := "height=" + d2;
    var query := WidthThenHeight(d1, d2);
    var n := 8 + |d1|;
    TwoParamsSplit(p, d1, d2);
    WidthConsumesAmpersand(d1, d2);
    PlainParam("height=", d2);
    RewriteAfterMatch(p, query, n);
    assert p + [query[0]] + query[n..] == p + "?height=" + d2 by {
      assert [query[0]] + second == "?height=" + d2;
    }
  }

  function WidthThenHeight(d1: string, d2: string): string
  {
    ['?'] + "width=" + d1 + ("&" + ("height=" + d2))
  }

  lemma TwoParamsSplit(p: string, d1: string, d2: string)
    ensures p + "?width=" + d1 + "&height=" + d2 == p + WidthThenHeight(d1, d2)
  {
    var rest := "&" + ("height=" + d2);
    var head := p + "?width=" + d1;
    assert "?width=" == ['?'] + "width=";
    assert head + "&height=" + d2 == head + rest;
    RegroupLeft(p, ['?'] + "width=", d1, rest);
  }

  /** The width match takes its digits and the `&` that follows them. */
  lemma WidthConsumesAmpersand(d1: string, d2: string)
    requires AllDigits(d1)
    ensures SizeParamLength(WidthThenHeight(d1, d2)) == Some(8 + |d1|)
    ensures WidthThenHeight(d1, d2)[8 + |d1|..] == "height=" + d2
  {
    var rest := "&" + ("height=" + d2);
    assert rest[0] == '&';
    SizeParamMatch('?', "width=", d1, rest);
  }

  /** So `x.png?width=256&height=256` becomes
      `x.png?height=256&format=png&quality=lossless`: only the width goes. */
  lemma NormalizeKeepsSecondSizeParam(p: string, d1: string, d2: string)
    requires Plain(p)
    requires AllDigits(d1) && AllDigits(d2)
    ensures Normalize(p + "?width=" + d1 + "&height=" + d2) == p + "?height=" + d2 + "&" + Suffix
  {
    var base := p + "?height=" + d2;
    RewriteKeepsSecondSizeParam(p, d1, d2);
    assert base[|base| - 1] == d2[|d2| - 1];
    assert base[|p|] == '?';
    NormalizeFromBase(p + "?width=" + d1 + "&height=" + d2, base);
  }

  /** The replacement is global: with a plain parameter between them, each
      size parameter finds its own separator and both go. Only the `&`
      left by the second match remains. */
  lemma RewriteDropsTwoSizeParams(p: string, q: string, d1: string, d2: string)
    requires Plain(p) && Plain(q)
    requires AllDigits(d1) && AllDigits(d2)
    ensures Rewrite(p + "?width=" + d1 + "&" + q + "&height=" + d2) == p + "?" + q + "&"
  {
    var rest := q + ("&height=" + d2);
    var query := ['?'] + "width=" + d1 + ("&" + rest);
    TwoSizeParamsSplit(p, q, d1, d2);
    PlainThenHeight(q, d2);
    WidthAndAmpersandGo(d1, rest);
    RewriteSkipsPlainPrefix(p, query);
    TwoSizeParamsJoin(p, q);
  }

  /** A plain stretch followed by a height parameter keeps the stretch and
      the `&` in front of the parameter. */
  lemma PlainThenHeight(q: string, d: string)
    requires Plain(q) && AllDigits(d)
    ensures Rewrite(q + ("&height=" + d)) == q + "&"
  {
    LoneParamGoes('&', "height=", d);
    assert "&height=" + d == ['&'] + "height=" + d;
    RewriteSkipsPlainPrefix(q, "&height=" + d);
  }

  lemma TwoSizeParamsJoin(p: string, q: string)
    ensures p + ("?" + (q + "&")) == p + "?" + q + "&"
  {
  }

  /** A size parameter that runs to the end leaves only its separator. */
  lemma LoneParamGoes(sep: char, name: string, d: string)
    requires IsSeparator(sep)
    requires name == "width=" || name == "height="
    requires AllDigits(d)
    ensures Rewrite([sep] + name + d) == [sep]
  {
    var s := [sep] + name + d;
    SizeParamMatch(sep, name, d, []);
    assert s + [] == s;
    RewriteJumps(s, |s|);
    assert s[|s|..] == [];
  }

  /** A leading width parameter goes with the `&` after it, and the scan
      resumes on what follows. */
  lemma WidthAndAmpersandGo(d: string, rest: string)
    requires AllDigits(d)
    ensures Rewrite(['?'] + "width=" + d + ("&" + rest)) == "?" + Rewrite(rest)
  {
    var s := ['?'] + "width=" + d + ("&" + rest);
    var n := 8 + |d|;
    SizeParamMatch('?', "width=", d, "&" + rest);
    assert s[n..] == rest;
    RewriteJumps(s, n);
  }

  lemma TwoSizeParamsSplit(p: string, q: string, d1: string, d2: string)
    ensures p + "?width=" + d1 + "&" + q + "&height=" + d2
            == p + (['?'] + "width=" + d1 + ("&" + (q + ("&height=" + d2))))
  {
    assert "?width=" == ['?'] + "width=";
  }

  /** ... and normalisation then drops that `&` and appends the quality
      request after one: `x.png?width=1&a=2&height=3` becomes
      `x.png?a=2&format=png&quality=lossless`. */
  lemma NormalizeDropsTwoSizeParams(p: string, q: string, d1: string, d2: string)
    requires Plain(p) && Plain(q)
    requires AllDigits(d1) && AllDigits(d2)
    ensures Normalize(p + "?width=" + d1 + "&" + q + "&height=" + d2) == p + "?" + q + "&" + Suffix
  {
    var src := p + "?width=" + d1 + "&" + q + "&height=" + d2;
    var base := p + "?" + q;
    RewriteDropsTwoSizeParams(p, q, d1, d2);
    assert DropTrailingSeparator(base + "&") == base;
    assert base[|p|] == '?';
    NormalizeFromBase(src, base);
  }

  /** A query with two parameters neither of which is a size passes
      through the rewrite as it is. */
  lemma RewriteKeepsUnsizedQuery(p: string, q1: string, q2: string)
    requires Plain(p) && Plain(q1) && Plain(q2)
    requires |q1| > 0 && q1[0] != 'w' && q1[0] != 'h'
    requires |q2| > 0 && q2[0] != 'w' && q2[0] != 'h'
    ensures Rewrite(p + "?" + q1 + "&" + q2) == p + "?" + q1 + "&" + q2
  {
    var second := "&" + q2;
    assert Rewrite(second) == second by {
      assert second[1] == q2[0];
      NoSizeParamAt(second);
      RewriteStepsOver(second);
      RewriteKeepsPlain(q2);
      assert second[1..] == q2;
    }
    var query := "?" + (q1 + second);
    assert Rewrite(query) == query by {
      assert query[1] == q1[0];
      NoSizeParamAt(query);
      RewriteStepsOver(query);
      assert query[1..] == q1 + second;
      RewriteSkipsPlainPrefix(q1, second);
    }
    RewriteSkipsPlainPrefix(p, query);
    RegroupRight(p, "?", q1, "&", q2);
  }

  /** The quality request is such a query, so normalising a normalised
      address appends it a second time:
      `x.png` becomes `x.png?format=png&quality=lossless`, and that becomes
      `x.png?format=png&quality=lossless&format=png&quality=lossless`. */
  lemma NormalizeTwiceAppendsTwice(p: string)
    requires Plain(p)
    ensures Normalize(p) == p + "?" + Suffix
    ensures Normalize(Normalize(p)) == p + "?" + Suffix + "&" + Suffix
  {
    RewriteKeepsPlain(p);
    NormalizeFromBase(p, p);
    var once := p + "?" + Suffix;
    assert Rewrite(once) == once by {
      SuffixParts();
      RewriteKeepsUnsizedQuery(p, "format=png", "quality=lossless");
      RegroupLeft(p + "?", "format=png", "&", "quality=lossless");
    }
    assert once[|once| - 1] == Suffix[|Suffix| - 1];
    assert once[|p|] == '?';
    NormalizeFromBase(once, once);
  }

  /** The two parameters of the quality request, neither of them a size. */
  lemma SuffixParts()
    ensures Suffix == "format=png" + "&" + "quality=lossless"
    ensures Plain("format=png") && Plain("quality=lossless")
  {
  }
}

=== FILE: prompt.dfy ===
/** Derives the prompt to resubmit from the text of the latest chat message
    (index.js:117-120): cut the first case-insensitive `/imagine prompt`
    together with the whitespace after it, drop every square bracket, trim. */
module PromptCleaning {
  import opened Wrappers
  import opened Text

  /** The command marker of `/\/imagine prompt\s* /i`, already in lower case. */
  const Marker := "/imagine prompt"

  /** The marker occurs at index `i` of `s`, ignoring ASCII case. */
  predicate MarkerAt(s: string, i: int)
  {
    0 <= i && i + |Marker| <= |s| && LowerStr(s[i..i + |Marker|]) == Marker
  }

  /** `r` is `s` with the marker at `i`, the first one, and the whole
      whitespace run after it, which ends at `e`, cut out. */
  ghost predicate CutAt(s: string, i: int, e: int, r: string)
  {
    && MarkerAt(s, i)
    && (forall k :: 0 <= k < i ==> !MarkerAt(s, k))
    && i + |Marker| <= e <= |s|
    && SpacesIn(s, i + |Marker|, e)
    && (e == |s| || !IsSpace(s[e]))
    && r == s[..i] + s[e..]
  }

  /** `r` is `s` with its first marker occurrence (wherever it sits) and the
      whole whitespace run after it cut out; `s` itself when there is none. */
  ghost predicate CutsFirstMarker(s: string, r: string)
  {
    if exists i :: MarkerAt(s, i) then exists i, e :: CutAt(s, i, e, r) else r == s
  }

  /** Leftmost marker occurrence at or after `from`: the regular-expression
      engine tries each start index in turn. */
  function FindMarker(s: string, from: nat): (r: Option<nat>)
    requires from <= |s|
    ensures r.Some? ==> from <= r.value && MarkerAt(s, r.value)
    ensures r.Some? ==> forall k :: from <= k < r.value ==> !MarkerAt(s, k)
    ensures r.None? <==> forall k :: from <= k ==> !MarkerAt(s, k)
    decreases |s| - from
  {
    if MarkerAt(s, from) then Some(from)
    else if from == |s| then None
    else FindMarker(s, from + 1)
  }

  /** `replace(/\/imagine prompt\s* /i, '')`: a single, non-global replacement. */
  function StripMarker(s: string): (r: string)
    ensures CutsFirstMarker(s, r)
  {
    match FindMarker(s, 0)
    case None => s
    case Some(i) =>
      var e := SpaceRunEnd(s, i + |Marker|);
      assert CutAt(s, i, e, s[..i] + s[e..]);
      s[..i] + s[e..]
  }

  /** `replace(/[\[\]]/g, '')`. */
  function RemoveBrackets(s: string): (r: string)
    ensures forall c :: c in r ==> c != '[' && c != ']'
    ensures forall c :: c != '[' && c != ']' ==> multiset(r)[c] == multiset(s)[c]
    decreases |s|
  {
    if |s| == 0 then []
    else
      var rest := RemoveBrackets(s[1..]);
      assert s == [s[0]] + s[1..];
      if s[0] == '[' || s[0] == ']' then rest
      else [s[0]] + rest
  }

  /** The prompt used for typing and for every later match. */
  function CleanPrompt(raw: string): (r: string)
    ensures forall c :: c in r ==> c != '[' && c != ']'
    ensures r == [] || (!IsSpace(r[0]) && !IsSpace(r[|r| - 1]))
    ensures exists m :: CutsFirstMarker(raw, m) && r == Trim(RemoveBrackets(m))
  {
    var u := RemoveBrackets(StripMarker(raw));
    TrimKeepsChars(u);
    Trim(u)
  }

  /** Removing brackets leaves bracket-free text untouched. */
  lemma {:induction false} RemoveBracketsKeepsPlainText(s: string)
    requires forall c :: c in s ==> c != '[' && c != ']'
    ensures RemoveBrackets(s) == s
    decreases |s|
  {
    if |s| > 0 {
      assert s[0] in s;
      assert forall c :: c in s[1..] ==> c in s;
      RemoveBracketsKeepsPlainText(s[1..]);
      assert s == [s[0]] + s[1..];
    }
  }

  /** A prompt with no marker, no bracket and no outer whitespace is already clean. */
  lemma CleanPromptKeepsCleanText(s: string)
    requires forall k :: !MarkerAt(s, k)
    requires forall c :: c in s ==> c != '[' && c != ']'
    requires s == [] || (!IsSpace(s[0]) && !IsSpace(s[|s| - 1]))
    ensures CleanPrompt(s) == s
  {
    RemoveBracketsKeepsPlainText(s);
    TrimClean(s);
  }

  /** Bracket removal works piece by piece. */
  lemma {:induction false} RemoveBracketsAppend(a: string, b: string)
    ensures RemoveBrackets(a + b) == RemoveBrackets(a) + RemoveBrackets(b)
    decreases |a|
  {
    if |a| > 0 {
      assert (a + b)[1..] == a[1..] + b;
      RemoveBracketsAppend(a[1..], b);
    } else {
      assert a + b == b;
    }
  }

  /** A prompt that opens with the marker loses it and the whitespace after it. */
  lemma StripLeadingMarker(t: string)
    ensures StripMarker(Marker + t) == TrimStart(t)
  {
    MarkerAtFront(t);
    StripFront(Marker + t);
    assert (Marker + t)[|Marker|..] == t;
  }

  /** A marker at the very front is cut together with the spaces after it. */
  lemma StripFront(s: string)
    requires MarkerAt(s, 0)
    ensures StripMarker(s) == TrimStart(s[|Marker|..])
  {
    var p, t := s[..|Marker|], s[|Marker|..];
    assert FindMarker(s, 0) == Some(0);
    assert s == p + t;
    SpaceRunEndShift(p, t, 0);
    var e := SpaceRunEnd(t, 0);
    assert s[|p| + e..] == t[e..];
  }

  lemma MarkerAtFront(t: string)
    ensures MarkerAt(Marker + t, 0)
  {
    assert (Marker + t)[0..|Marker|] == Marker;
    MarkerIsLower();
  }

  lemma MarkerIsLower()
    ensures LowerStr(Marker) == Marker
  {
  }

  /** The usual shape of the latest message: the command, a space, and the
      prompt in square brackets, such as `/imagine prompt [a red fox]`,
      which cleans to `a red fox`. */
  lemma CleanCommandPrompt(body: string)
    requires forall c :: c in body ==> c != '[' && c != ']'
    requires body == [] || (!IsSpace(body[0]) && !IsSpace(body[|body| - 1]))
    ensures CleanPrompt(Marker + " [" + body + "]") == body
  {
    var bracketed := "[" + body + "]";
    CommandShape(Marker, body);
    assert StripMarker(Marker + (" " + bracketed)) == bracketed by {
      StripLeadingMarker(" " + bracketed);
      SpaceThenBracket(bracketed);
    }
    assert RemoveBrackets(bracketed) == body by {
      RemoveBracketsAppend("[" + body, "]");
      RemoveBracketsAppend("[", body);
      RemoveBracketsKeepsPlainText(body);
    }
    TrimClean(body);
  }

  lemma CommandShape(m: string, body: string)
    ensures m + " [" + body + "]" == m + (" " + ("[" + body + "]"))
  {
  }

  lemma SpaceThenBracket(bracketed: string)
    requires |bracketed| > 0 && bracketed[0] == '['
    ensures TrimStart(" " + bracketed) == bracketed
  {
    assert IsSpace(' ') && !IsSpace('[');
    TrimStartOneSpace(' ', bracketed);
  }
}

=== FILE: reply.dfy ===
/** Recognises the image bot's reply to the resubmitted prompt
    (index.js:139-192): the reply predicate, the newest-first scan of one
    message listing, and the poll loop that repeats the scan until the
    two-minute deadline. */
module ReplyDetection {
  import opened Wrappers
  import opened Text
  import opened View

  /** The author marker the reply must contain, compared case-sensitively. */
  const BotMarker := "Midjourney Bot"

  /** How long after submission the poll keeps looking, in milliseconds. */
  const ReplyWindow := 120000

  /** A message text is the bot's reply to `cleaned`: it contains the prompt
      ignoring case, and the author marker with its case as written. */
  predicate IsReply(text: string, cleaned: string)
  {
    Contains(LowerStr(text), LowerStr(cleaned)) && Contains(text, BotMarker)
  }

  /** One scan of a listing from the last element down to the first; the
      first hit ends the scan. */
  function NewestReply(listing: Listing, cleaned: string): (r: Option<nat>)
    ensures r.Some? ==> r.value < |listing| && IsReply(listing[r.value].text, cleaned)
    ensures r.Some? ==> forall k :: r.value < k < |listing| ==> !IsReply(listing[k].text, cleaned)
    ensures r.None? <==> forall k :: 0 <= k < |listing| ==> !IsReply(listing[k].text, cleaned)
    decreases |listing|
  {
    if |listing| == 0 then None
    else if IsReply(listing[|listing| - 1].text, cleaned) then Some(|listing| - 1)
    else NewestReply(listing[..|listing| - 1], cleaned)
  }

  /** Where the poll loop stopped: at a matching message of one snapshot, or
      at a clock check that was no longer before the deadline. */
  datatype PollResult = Found(snapshot: nat, message: nat) | TimedOut

  /** The clock check before each scan from the `i`-th to the `k`-th passed. */
  ghost predicate ChecksPassedFrom(trace: seq<Snapshot>, deadline: int, i: int, k: int)
  {
    forall m :: i <= m <= k && 0 <= m < |trace| ==> trace[m].at < deadline
  }

  /** The clock check before each of the first `k + 1` scans passed. */
  ghost predicate ChecksPassed(trace: seq<Snapshot>, deadline: int, k: int)
  {
    ChecksPassedFrom(trace, deadline, 0, k)
  }

  /** The `while (Date.now() < timeout)` loop over the observed snapshots,
      one per passing clock check. A trace that ends before any check fails
      is the whole observation, so running out of it ends the loop as well. */
  function Poll(trace: seq<Snapshot>, cleaned: string, deadline: int): (r: PollResult)
    ensures r.Found? ==> && r.snapshot < |trace|
                         && ChecksPassed(trace, deadline, r.snapshot)
                         && NewestReply(trace[r.snapshot].listing, cleaned) == Some(r.message)
    ensures r.Found? ==> forall k :: 0 <= k < r.snapshot ==> NewestReply(trace[k].listing, cleaned).None?
    ensures r.TimedOut? <==> forall k :: 0 <= k < |trace| && ChecksPassed(trace, deadline, k) ==>
                                          NewestReply(trace[k].listing, cleaned).None?
  {
    var hits := seq(|trace|, k requires 0 <= k < |trace| => NewestReply(trace[k].listing, cleaned));
    assert forall k :: 0 <= k < |trace| ==> hits[k] == NewestReply(trace[k].listing, cleaned);
    PollFrom(trace, hits, deadline, 0)
  }

  /** The loop from its `i`-th iteration on, given what each scan finds. */
  function PollFrom(trace: seq<Snapshot>, hits: seq<Option<nat>>, deadline: int, i: nat): (r: PollResult)
    requires |hits| == |trace| && i <= |trace|
    ensures r.Found? ==> && i <= r.snapshot < |trace|
                         && ChecksPassedFrom(trace, deadline, i, r.snapshot)
                         && hits[r.snapshot] == Some(r.message)
    ensures r.Found? ==> forall k :: i <= k < r.snapshot ==> hits[k].None?
    ensures r.TimedOut? <==> forall k :: i <= k < |trace| && ChecksPassedFrom(trace, deadline, i, k) ==> hits[k].None?
    decreases |trace| - i
  {
    if i == |trace| || deadline <= trace[i].at then
      assert forall k :: i <= k < |trace| ==> !ChecksPassedFrom(trace, deadline, i, k);
      TimedOut
    else
      match hits[i]
      case Some(j) => Found(i, j)
      case None =>
        var r := PollFrom(trace, hits, deadline, i + 1);
        assert forall k :: i < k < |trace| ==>
                 (ChecksPassedFrom(trace, deadline, i, k) <==> ChecksPassedFrom(trace, deadline, i + 1, k));
        r
  }

  /** Clock readings never go backwards along the trace. */
  ghost predicate Monotone(trace: seq<Snapshot>)
  {
    forall j, k :: 0 <= j <= k < |trace| ==> trace[j].at <= trace[k].at
  }

  /** With a clock that does not run backwards, the poll times out exactly
      when no snapshot taken before the deadline shows a reply: a reply that
      appears only at or after the deadline is never picked up. */
  lemma PollTimesOutIffNoTimelyReply(trace: seq<Snapshot>, cleaned: string, deadline: int)
    requires Monotone(trace)
    ensures Poll(trace, cleaned, deadline).TimedOut? <==>
              forall k :: 0 <= k < |trace| && trace[k].at < deadline ==>
                            NewestReply(trace[k].listing, cleaned).None?
  {
    var r := Poll(trace, cleaned, deadline);
    if r.TimedOut? {
      forall k | 0 <= k < |trace| && trace[k].at < deadline
        ensures NewestReply(trace[k].listing, cleaned).None?
      {
        assert ChecksPassed(trace, deadline, k);
      }
    }
  }

  /** An empty prompt is contained in every text, so any message carrying
      the author marker matches it. */
  lemma EmptyPromptMatchesAnyBotMessage(text: string)
    ensures IsReply(text, "") <==> Contains(text, BotMarker)
  {
    assert OccursAt(LowerStr(text), LowerStr(""), 0);
  }

  /** The check at index.js:187-192 re-reads the reacquired message; when the
      text read back is the one the reacquiring scan matched, it cannot fail. */
  lemma RecheckAfterReacquireHolds(listing: Listing, cleaned: string, reread: string)
    requires NewestReply(listing, cleaned).Some?
    requires reread == listing[NewestReply(listing, cleaned).value].text
    ensures Contains(LowerStr(reread), LowerStr(cleaned))
  {
  }

  /** The prompt is compared ignoring case: two prompts that lower-case
      alike match the same messages... */
  lemma ReplyIgnoresPromptCase(text: string, a: string, b: string)
    requires LowerStr(a) == LowerStr(b)
    ensures IsReply(text, a) <==> IsReply(text, b)
  {
  }

  /** ... in particular a prompt and its lower-case form... */
  lemma ReplyMatchesLoweredPrompt(text: string, p: string)
    ensures IsReply(text, p) <==> IsReply(text, LowerStr(p))
  {
    LowerStrIdempotent(p);
    ReplyIgnoresPromptCase(text, p, LowerStr(p));
  }

  /** ... but the author marker is not. */
  lemma ReplyKeepsMarkerCase()
    ensures !IsReply("a red fox - midjourney bot", "a red fox")
  {
    assert 'M' !in "a red fox - midjourney bot";
    AbsentInitialAbsentText("a red fox - midjourney bot", BotMarker);
  }
}

=== FILE: text.dfy ===
/** Character and string helpers shared by every stage of the job: ASCII case
    folding, substring search (String.prototype.includes), the whitespace
    class shared by the regular-expression escape `\s` and
    String.prototype.trim, and character counting. */
module Text {

  /** Lower-cases an ASCII letter; every other character is its own lower case. */
  function Lower(c: char): char
  {
    if 'A' <= c <= 'Z' then (c as int + 32) as char else c
  }

  function LowerStr(s: string): (r: string)
    ensures |r| == |s|
    ensures forall i :: 0 <= i < |s| ==> r[i] == Lower(s[i])
  {
    seq(|s|, i requires 0 <= i < |s| => Lower(s[i]))
  }

  /** Lower-casing twice is lower-casing once. */
  lemma LowerStrIdempotent(s: string)
    ensures LowerStr(LowerStr(s)) == LowerStr(s)
  {
    var l := LowerStr(s);
    forall i | 0 <= i < |s|
      ensures LowerStr(l)[i] == l[i]
    {
      assert l[i] == Lower(s[i]);
    }
  }

  /** `p` occurs in `s` starting at index `i`. */
  predicate OccursAt(s: string, p: string, i: int)
  {
    0 <= i && i + |p| <= |s| && s[i..i + |p|] == p
  }

  /** String.prototype.includes: `p` occurs somewhere in `s` (the empty string occurs everywhere). */
  predicate Contains(s: string, p: string)
  {
    exists i | 0 <= i <= |s| - |p| :: OccursAt(s, p, i)
  }

  /** A text without the first character of `p` does not contain `p`. */
  lemma AbsentInitialAbsentText(s: string, p: string)
    requires |p| > 0 && p[0] !in s
    ensures !Contains(s, p)
  {
    forall i | 0 <= i <= |s| - |p|
      ensures !OccursAt(s, p, i)
    {
      assert s[i..i + |p|][0] == s[i];
    }
  }

  /** The ECMAScript WhiteSpace and LineTerminator characters: the class
      matched by `\s` and removed by String.prototype.trim. */
  predicate IsSpace(c: char)
  {
    var n := c as int;
    || n == 0x09 || n == 0x0A || n == 0x0B || n == 0x0C || n == 0x0D || n == 0x20
    || n == 0xA0 || n == 0x1680 || (0x2000 <= n <= 0x200A) || n == 0x2028 || n == 0x2029
    || n == 0x202F || n == 0x205F || n == 0x3000 || n == 0xFEFF
  }

  /** Every character of `s` at an index in `[i, j)` is whitespace. */
  predicate SpacesIn(s: string, i: int, j: int)
  {
    forall k :: i <= k < j && 0 <= k < |s| ==> IsSpace(s[k])
  }

  /** End of the whitespace run of `s` that starts at `i`: where the greedy
      `\s*` stops. */
  function SpaceRunEnd(s: string, i: nat): (e: nat)
    requires i <= |s|
    ensures i <= e <= |s| && SpacesIn(s, i, e)
    ensures e == |s| || !IsSpace(s[e])
    decreases |s| - i
  {
    if i < |s| && IsSpace(s[i]) then SpaceRunEnd(s, i + 1) else i
  }

  /** Start of the whitespace run of `s` that ends at `j`. */
  function SpaceRunStart(s: string, j: nat): (b: nat)
    requires j <= |s|
    ensures b <= j && SpacesIn(s, b, j)
    ensures b == 0 || !IsSpace(s[b - 1])
    decreases j
  {
    if j > 0 && IsSpace(s[j - 1]) then SpaceRunStart(s, j - 1) else j
  }

  /** Drops the maximal run of whitespace at the front of `s`. */
  function TrimStart(s: string): (r: string)
    ensures |r| <= |s| && r == s[|s| - |r|..]
    ensures SpacesIn(s, 0, |s| - |r|)
    ensures r == [] || !IsSpace(r[0])
  {
    s[SpaceRunEnd(s, 0)..]
  }

  /** String.prototype.trim: `r` is a slice of `s` that neither starts nor ends
      with whitespace, and everything cut off on either side is whitespace. */
  function Trim(s: string): (r: string)
    ensures r == [] || (!IsSpace(r[0]) && !IsSpace(r[|r| - 1]))
    ensures exists i | 0 <= i <= |s| - |r| :: r == s[i..i + |r|] && SpacesIn(s, 0, i) && SpacesIn(s, i + |r|, |s|)
  {
    var b := SpaceRunEnd(s, 0);
    if b == |s| then
      assert s[b..b] == [];
      []
    else
      var e := SpaceRunStart(s, |s|);
      assert b < e;
      s[b..e]
  }

  /** Trimming introduces no character. */
  lemma TrimKeepsChars(s: string)
    ensures forall c :: c in Trim(s) ==> c in s
  {
    var r := Trim(s);
    var i :| 0 <= i <= |s| - |r| && r == s[i..i + |r|] && SpacesIn(s, 0, i) && SpacesIn(s, i + |r|, |s|);
    SliceChars(s, i, i + |r|);
  }

  /** The whitespace run after a prefix is found where it is in the rest. */
  lemma {:induction false} SpaceRunEndShift(p: string, t: string, i: nat)
    requires i <= |t|
    ensures SpaceRunEnd(p + t, |p| + i) == |p| + SpaceRunEnd(t, i)
    decreases |t| - i
  {
    var s := p + t;
    if i < |t| {
      assert s[|p| + i] == t[i];
      if IsSpace(t[i]) {
        SpaceRunEndShift(p, t, i + 1);
      }
    }
  }

  /** One leading whitespace character before non-space text goes. */
  lemma TrimStartOneSpace(c: char, x: string)
    requires IsSpace(c) && |x| > 0 && !IsSpace(x[0])
    ensures TrimStart([c] + x) == x
  {
    var s := [c] + x;
    assert s[1] == x[0];
    assert SpaceRunEnd(s, 1) == 1;
    assert s[1..] == x;
  }

  /** A string with no whitespace at either end is its own trim. */
  lemma TrimClean(s: string)
    requires s == [] || (!IsSpace(s[0]) && !IsSpace(s[|s| - 1]))
    ensures Trim(s) == s
  {
    if s != [] {
      assert SpaceRunEnd(s, 0) == 0;
      assert SpaceRunStart(s, |s|) == |s|;
      assert s[0..|s|] == s;
    }
  }

  /** Every character of a slice is a character of the whole. */
  lemma SliceChars(s: string, i: int, j: int)
    requires 0 <= i <= j <= |s|
    ensures forall c :: c in s[i..j] ==> c in s
  {
    forall c | c in s[i..j]
      ensures c in s
    {
      var k :| i <= k < j && s[k] == c;
    }
  }

  /** A sequence is its part before index `n`, its element at `n`, and its part after. */
  lemma SplitAround<T>(r: seq<T>, n: nat)
    requires n < |r|
    ensures r == r[..n] + [r[n]] + r[n + 1..]
  {
  }
}

=== FILE: view.dfy ===
/** What the automation can see of the chat: each element matched by
    `[data-list-item-id^="chat-messages"]`, read through the few queries the
    script makes on it, and the timestamped views the reply poll observes. */
module View {
  import opened Wrappers

  /** One rendered chat message. */
  datatype Message = Message(
    /** Inner text of the message's `[class*="markup"]` element; None when there is none. */
    markup: Option<string>,
    /** The message's innerText; "" when reading it fails, as the scans' catch turns a failure into "". */
    text: string,
    /** The message holds a `button:has-text("U1")`. */
    hasUpscale: bool,
    /** The `src` attribute of each `img` in document order; None when the attribute is absent. */
    images: seq<Option<string>>)

  /** The message list in document order: the last element is the most recent message. */
  type Listing = seq<Message>

  /** The listing the poll loop read right after a check of the clock that returned `at`. */
  datatype Snapshot = Snapshot(at: int, listing: Listing)
}

=== FILE: wrappers.dfy ===
/** The optional value used wherever the script works with `null`, a missing
    element, or a search that finds nothing. */
module Wrappers {

  datatype Option<+T> = None | Some(value: T)
}
